=== FILE: README.md ===
# rscan point-cloud core in Dafny

This project models the back end of the rscan desktop viewer. It covers:

- **PLY reader.** `PointCloud::from_ply` reads an ASCII PLY file. The header loop picks out
  three things: the vertex count (`element vertex N`), whether any line mentions `red`,
  and the `end_header` line. The body loop then reads one line per vertex: three
  coordinates, plus a color when the header mentioned one and the line has six or more fields.
- **Voxel filter.** `voxel_downsample` keeps the first point of each voxel. It keys points
  in a hash map, so the kept points come out in the map's order.
- **Outlier filter.** `remove_outliers` drops every point whose distance to the centroid
  is not below mean + `std_ratio` times the standard deviation of the distances.
- **Tauri commands.**
  - `load_point_cloud` stores the cloud and reports its size, whether it has colors, and
    its bounding box.
  - `process_point_cloud` runs the two filters as the options ask and updates the
    processing status.
  - `get_processing_status` returns that status.
  - The application starts with no cloud and a default status.

## Modules

- `Outcomes`: `Option` and `Result`.
- `Points`: `Vec3` and `Rgb`.
- `Text`: the string operations the reader uses (`split_whitespace`, `trim`,
  `starts_with`, `contains`, integer `parse`) and a decimal printer used for round trips.
- `Ply`: the reader as functions.
  - `HeaderOf` is the header loop, written over each line's classification.
  - `BodyOf` is the body loop, parameterised by the per-line reader `Reader(hasColor, parse)`.
  - `ParsePly` composes the two.
- `PlyLayout`: a PLY writer that is not part of the application. `ParsePly` reads back
  exactly what it writes, for any cloud whose coordinates the coordinate printer and
  parser round-trip and whose point count is at most `i32::MAX`.
- `Indexing`: gathering by index lists, and rearranged index lists.
- `Voxels`: the voxel selection (`FirstPerVoxel`, `VoxelIndices`) and what any selection
  keeps.
- `Outliers`: centroid, distances, mean, deviation, threshold, mask, and filtering by a mask.
- `PointClouds`: the `PointCloud` class. Its methods change the fields in place. Each
  method is specified by a function on a `Snapshot` of the fields, and lemmas about those
  functions say what the filters keep.
- `Commands`: the bounds fold, `LoadResult`, `ProcessingStatus`, `ProcessOptions`, and the
  `AppState` class with the three commands.

## Modelling choices

- **Inputs.**
  - A file is its sequence of lines, without line terminators.
  - Reading past the end gives the empty line, as `read_line` leaves `line` empty at the
    end of the file.
- **Outside functions as parameters.** The model receives these rather than computing them:
  - `parseCoord` for `str::parse::<f32>`;
  - `sqrt` for `f32::sqrt`;
  - the voxel key for `(p[a] / voxel_size).floor() as i32`.
- **Integer parsing.** `parse` on integers is modelled exactly: an optional sign (a `+`
  for both types, a `-` only for `i32`), decimal digits, and the range of the target type.
  `vertex_count` is an `i32`. A negative count gives `0..vertex_count` an empty range, so
  no vertices are read.
- **Panics and hangs become errors.** Where the source panics or never stops, the model
  returns a `PlyError`:
  - `BadVertexCount(line)`: `nth(2).unwrap()` or `parse().unwrap()` on the count fails;
  - `MalformedVertex(v)`: `vals[i]` is out of range, or a coordinate or color does not parse;
  - `MissingEndHeader`: there is no `end_header` line. The source loops forever on the
    empty line it reads at the end of the file.
- **The colors re-index panic.** In `voxel_downsample`, `self.colors[i]` panics when
  `colors` is shorter than the kept indices need. That panic is the `panicked` result of
  `VoxelDownsample` and the `Panicked` outcome of `ProcessPointCloud`.
- **Map order.** The map's iteration order is a nondeterministic choice (`:|`).
  `SelectionsAgreeUpToOrder` shows that this choice is the only freedom.

## Model

| member | source | states |
|---|---|---|
| Text.Tokens | rscan-desktop/src-tauri/src/point_cloud.rs:47 | every field `split_whitespace` yields is non-empty and free of whitespace |
| Text.TokensOfJoin | rscan-desktop/src-tauri/src/point_cloud.rs:47 | a line of words separated by single spaces splits back into exactly those words |
| Text.TokensSkipLeadingSpace | rscan-desktop/src-tauri/src/point_cloud.rs:47 | any whitespace-only prefix, of any length, leaves the fields unchanged |
| Text.TrimIsInfix | rscan-desktop/src-tauri/src/point_cloud.rs:38 | `trim` returns the infix of the line left after whitespace-only ends; it neither starts nor ends with whitespace |
| Text.TrimPadded | rscan-desktop/src-tauri/src/point_cloud.rs:38 | a word with whitespace on either side trims to the word |
| Text.ParseInteger | rscan-desktop/src-tauri/src/point_cloud.rs:33 | a parsed integer lies in the target type's range; a leading `-` is accepted only for a signed type and gives a value ≤ 0 |
| Text.ParseI32OfShow | rscan-desktop/src-tauri/src/point_cloud.rs:33 | the decimal text of every `i32` parses back to it |
| Text.ParseU8OfShow | rscan-desktop/src-tauri/src/point_cloud.rs:57-59 | the decimal text of every `u8` parses back to it |
| Text.DigitsOfShowNat | rscan-desktop/src-tauri/src/point_cloud.rs:33 | the decimal digits printed for `n` have the value `n` |
| Ply.ScanHeaderFrom | rscan-desktop/src-tauri/src/point_cloud.rs:29-41 | the header loop from line `i`: an `element vertex` line without an `i32` third field fails, otherwise it sets the count; `red` sets the color flag; a line trimming to `end_header` ends the header after it; running out of lines is `MissingEndHeader`. Characterised by `ScanStopsAtFirstEnd`, `ScanColor`, `ScanCount`, `ScanErrors`, `ScanSucceeds` |
| Ply.HeaderOf | rscan-desktop/src-tauri/src/point_cloud.rs:25-41 | the header loop from the first line with count 0 and no color. Characterised by `HeaderStopsAtFirstEnd`, `HeaderColor`, `HeaderVertexCount`, `HeaderFailsIff`, `HeaderErrorCause` |
| Ply.VertexOf | rscan-desktop/src-tauri/src/point_cloud.rs:47-61 | one body iteration: a point from the first three fields, and a color from fields four to six when the header has color and the line has six or more fields; `None` where the source panics. Characterised by `VertexOfIff` |
| Ply.BodyOf | rscan-desktop/src-tauri/src/point_cloud.rs:44-62 | the first `n` body lines read in order, stopping with `MalformedVertex` at the first one that does not read. Characterised by `BodyOkIff`, `BodyErrorIsFirstBadLine`, `BodyPointsRead`, `BodyColorsInOrder`, `BodyContents` |
| Ply.ParsePly | rscan-desktop/src-tauri/src/point_cloud.rs:20-64 | the header, then as many body lines as its count gives (none for a count below one). Characterised by `ParseOfLayout` and the header and body lemmas |
| Ply.ScanStopsAtFirstEnd | rscan-desktop/src-tauri/src/point_cloud.rs:29-41 | a successful header scan ends at the first `end_header` line and the body starts right after it |
| Ply.ScanColor | rscan-desktop/src-tauri/src/point_cloud.rs:35-37 | color is set iff some line up to the end line mentions `red`, or it was already set |
| Ply.ScanCountFields | rscan-desktop/src-tauri/src/point_cloud.rs:32-34 | every `element vertex` line up to and including the end line has a count field |
| Ply.ScanCount | rscan-desktop/src-tauri/src/point_cloud.rs:32-34 | the count is that of the last `element vertex` line up to the end line, or the initial value when there is none |
| Ply.ScanErrors | rscan-desktop/src-tauri/src/point_cloud.rs:29-41 | a failed scan names an `element vertex` line without a valid count and no end line before it, or runs off the end without an end line |
| Ply.ScanSucceeds | rscan-desktop/src-tauri/src/point_cloud.rs:29-41 | an end line with valid counts on every vertex line up to it makes the scan succeed |
| Ply.HeaderStopsAtFirstEnd | rscan-desktop/src-tauri/src/point_cloud.rs:38-40 | the body starts right after the first line that trims to `end_header` |
| Ply.HeaderColor | rscan-desktop/src-tauri/src/point_cloud.rs:35-37 | `has_color` holds iff some header line contains `red` |
| Ply.HeaderVertexCount | rscan-desktop/src-tauri/src/point_cloud.rs:25-34 | the count is the third field of the last `element vertex` header line, or 0 without one |
| Ply.HeaderFailsIff | rscan-desktop/src-tauri/src/point_cloud.rs:29-41 | the header fails iff there is no `end_header` line, or some `element vertex` line up to the first one has no parsable third field |
| Ply.HeaderErrorCause | rscan-desktop/src-tauri/src/point_cloud.rs:29-41 | a `BadVertexCount(j)` error points at an `element vertex` line without a parsable count and with no end line before it; `MissingEndHeader` means there is no end line at all; a header never fails with a vertex error |
| Ply.BodyErrorPersists | rscan-desktop/src-tauri/src/point_cloud.rs:44-62 | once a body line fails, reading more vertices gives the same error |
| Ply.BodyOkIff | rscan-desktop/src-tauri/src/point_cloud.rs:44-62 | the body reads successfully iff every one of its `n` lines reads |
| Ply.BodyErrorIsFirstBadLine | rscan-desktop/src-tauri/src/point_cloud.rs:44-62 | a body error names the first line that does not read, and every earlier line reads |
| Ply.BodyPointsRead | rscan-desktop/src-tauri/src/point_cloud.rs:49-53 | the body holds one point per vertex line, the point that line reads to |
| Ply.CountLinesBound | rscan-desktop/src-tauri/src/point_cloud.rs:55-61 | the number of body lines with a property is at most `n`; it is 0 iff none has it and `n` iff all do |
| Ply.BodyColorsRead | rscan-desktop/src-tauri/src/point_cloud.rs:55-61 | for any reader that gives one color on the lines satisfying `p` and none elsewhere: the number of colors is the number of such lines; when every line satisfies `p`, color `i` is line `i`'s |
| Ply.BodyColorsInOrder | rscan-desktop/src-tauri/src/point_cloud.rs:55-61 | for the same readers: color `j` is the one read from the `j`-th line satisfying `p`, so the colors come from those lines in order |
| Ply.ColorsFromCarryingLines | rscan-desktop/src-tauri/src/point_cloud.rs:55-61 | with the `from_ply` reader: color `j` is fields four to six of the `j`-th body line that carries a color; there are exactly as many colors as such lines |
| Ply.VertexOfIff | rscan-desktop/src-tauri/src/point_cloud.rs:47-61 | a vertex line reads iff it has three parsable coordinates and, when colors apply to it, three parsable `u8` fields; it carries a color iff the header has color and the line has six or more fields |
| Ply.BodyContents | rscan-desktop/src-tauri/src/point_cloud.rs:43-62 | a read body has exactly `n` points, point `i` from line `i`; at most `n` colors; none without header color; one per point, from the same line, when every line has six or more fields; otherwise color `j` comes from the `j`-th line carrying one |
| PlyLayout.CountLine | rscan-desktop/src-tauri/src/point_cloud.rs:32-33 | the written `element vertex N` line is recognised and its count reads back as `N` |
| PlyLayout.HeaderOfLayout | rscan-desktop/src-tauri/src/point_cloud.rs:29-41 | the header scan of a written file returns its vertex count, its color flag, and a body start just after the header |
| PlyLayout.VertexOfLayout | rscan-desktop/src-tauri/src/point_cloud.rs:47-61 | a written vertex line whose coordinates each print as one word that parses back reads back to its point and, in a colored file, its color |
| PlyLayout.ParseOfLayout | rscan-desktop/src-tauri/src/point_cloud.rs:20-64 | a written file parses back to exactly the points and colors written, when every coordinate of the cloud prints as one word that parses back, the colors are absent or one per point, and the count fits in `i32` |
| PlyLayout.OriginShowsBack | rscan-desktop/src-tauri/src/point_cloud.rs:49-53 | the premise of the round trip can be met: a writer printing `0` and a parser reading `0` round-trip the origin |
| Indexing.Gather | rscan-desktop/src-tauri/src/point_cloud.rs:79-81 | `indices.iter().map(..)` reading `xs[i]` for each index: one element per index, `xs[indices[j]]` at position `j`. Characterised by `GatherPermutes`, `SelectIsGather`, `SelectionKeepsOnePerVoxel` |
| Indexing.GatherPermutes | rscan-desktop/src-tauri/src/point_cloud.rs:78-81 | gathering by two index lists that rearrange each other gives elements that rearrange each other |
| Voxels.FirstPerVoxel | rscan-desktop/src-tauri/src/point_cloud.rs:67-76 | the map has one entry per voxel of the input; each holds the lowest index in that voxel and its point |
| Voxels.VoxelIndices | rscan-desktop/src-tauri/src/point_cloud.rs:67-78 | the kept indices are exactly the first index of each voxel, each once, one per distinct voxel |
| Voxels.FirstOfKeyExists | rscan-desktop/src-tauri/src/point_cloud.rs:69-76 | every point has a first point of its voxel at or before it |
| Voxels.SelectionKeepsOnePerVoxel | rscan-desktop/src-tauri/src/point_cloud.rs:67-79 | every kept point is the first of its voxel; no voxel is kept twice; every input voxel is kept |
| Voxels.SelectionSize | rscan-desktop/src-tauri/src/point_cloud.rs:78-79 | a selection keeps as many points as there are distinct voxels |
| Voxels.KeySetBound | rscan-desktop/src-tauri/src/point_cloud.rs:69-76 | there are never more voxels than points |
| Voxels.SelectionsAgreeUpToOrder | rscan-desktop/src-tauri/src/point_cloud.rs:78-79 | any two map orders keep the same indices and the same points up to order |
| Outliers.Centroid | rscan-desktop/src-tauri/src/point_cloud.rs:91-95 | `mean`: the mean of each coordinate column |
| Outliers.Distance | rscan-desktop/src-tauri/src/point_cloud.rs:100-103 | the Euclidean distance, with the given square root |
| Outliers.StdDev | rscan-desktop/src-tauri/src/point_cloud.rs:106-112 | the population deviation of the distances around their mean. Characterised by `StdDevOfConstant` |
| Outliers.Threshold | rscan-desktop/src-tauri/src/point_cloud.rs:113 | `mean_dist + std_ratio * std`. Characterised by `RatioMonotone`, `SomePointSurvives`, `EqualDistancesDropAll` |
| Outliers.Select | rscan-desktop/src-tauri/src/point_cloud.rs:116-122 | `zip(&mask).filter(..).map(..)`: the elements at true mask positions, in order, up to the shorter side. Characterised by `SelectIsGather`, `SelectTruncates`, `SelectLength`, `SelectKeepsPairs` |
| Indexing.Kept | rscan-desktop/src-tauri/src/point_cloud.rs:119-120 | the true positions of a mask, in increasing order. Characterised by `KeptExactly` |
| Outliers.Distances | rscan-desktop/src-tauri/src/point_cloud.rs:97-104 | one distance per point |
| Outliers.Mask | rscan-desktop/src-tauri/src/point_cloud.rs:115 | one mask entry per point |
| Indexing.KeptAreTrue | rscan-desktop/src-tauri/src/point_cloud.rs:119-120 | every kept position lies in the mask and is true there |
| Indexing.TrueAreKept | rscan-desktop/src-tauri/src/point_cloud.rs:119-120 | every true position of the mask is kept |
| Indexing.KeptIncreasing | rscan-desktop/src-tauri/src/point_cloud.rs:116-122 | the kept positions are in increasing order |
| Indexing.KeptLength | rscan-desktop/src-tauri/src/point_cloud.rs:116-122 | no more positions are kept than the mask has |
| Indexing.KeptExactly | rscan-desktop/src-tauri/src/point_cloud.rs:116-122 | the kept positions are increasing and are exactly the true ones |
| Outliers.SelectIsGather | rscan-desktop/src-tauri/src/point_cloud.rs:116-122 | `zip`, `filter` and `map` give the elements at the kept positions, in order |
| Outliers.SelectTruncates | rscan-desktop/src-tauri/src/point_cloud.rs:119 | `zip` stops at the shorter of the sequence and the mask |
| Outliers.SelectLength | rscan-desktop/src-tauri/src/point_cloud.rs:116-122 | the filtered sequence is as long as the number of true mask entries |
| Outliers.SelectKeepsPairs | rscan-desktop/src-tauri/src/point_cloud.rs:116-131 | filtering two aligned sequences by one mask keeps elements at the same positions |
| Outliers.BelowMean | rscan-desktop/src-tauri/src/point_cloud.rs:106 | values that are not all equal have one strictly below their mean |
| Outliers.SomePointSurvives | rscan-desktop/src-tauri/src/point_cloud.rs:106-115 | when two distances differ, `std_ratio` ≥ 0 and the given square root gives a non-negative standard deviation, at least one point is kept |
| Outliers.StdDevOfConstant | rscan-desktop/src-tauri/src/point_cloud.rs:106-112 | equal distances have that distance as their mean and a deviation of `sqrt(0)` |
| Outliers.EqualDistancesDropAll | rscan-desktop/src-tauri/src/point_cloud.rs:113-115 | when all distances are equal, the strict `<` drops every point |
| Outliers.RatioMonotone | rscan-desktop/src-tauri/src/point_cloud.rs:113-115 | when the given square root gives a non-negative standard deviation, a larger `std_ratio` keeps every point a smaller one keeps |
| PointClouds.Downsampled | rscan-desktop/src-tauri/src/point_cloud.rs:78-82 | the cloud after the voxel step picked `indices`: points gathered, non-empty colors gathered the same way unless that panics, normals unchanged. Characterised by `DownsamplePanicsIff`, `DownsampleKeepsPairs`, `DownsampleShrinks` |
| PointClouds.DownsamplePanics | rscan-desktop/src-tauri/src/point_cloud.rs:80-81 | `self.colors[i]` reads past the end: colors are present and some kept index is not below their length. Characterised by `DownsamplePanicsIff` |
| PointClouds.Filtered | rscan-desktop/src-tauri/src/point_cloud.rs:116-131 | points, and colors unless empty, filtered by one mask; normals unchanged. Characterised by `FilteredKeepsPairs` |
| PointClouds.OutliersRemoved | rscan-desktop/src-tauri/src/point_cloud.rs:87-131 | the cloud unchanged below `k` points, else points and non-empty colors filtered by the outlier mask. Characterised by `FilteredKeepsPairs`, `OutliersShrink` |
| PointClouds.DownsamplePanicsIff | rscan-desktop/src-tauri/src/point_cloud.rs:80-81 | re-indexing the colors panics iff they are present and end before some point that is first of its voxel |
| PointClouds.DownsampleKeepsPairs | rscan-desktop/src-tauri/src/point_cloud.rs:78-82 | with aligned colors there is no panic; kept point `j` and its color come from the same input index; normals are untouched |
| PointClouds.DownsampleShrinks | rscan-desktop/src-tauri/src/point_cloud.rs:78-82 | the voxel step never adds points, leaves normals alone, and keeps aligned colors aligned |
| PointClouds.FilteredKeepsPairs | rscan-desktop/src-tauri/src/point_cloud.rs:115-131 | filtering keeps the points at the increasing true positions of the mask, and aligned colors at the same positions |
| PointClouds.OutliersShrink | rscan-desktop/src-tauri/src/point_cloud.rs:85-132 | the outlier step never adds points, leaves normals alone, and keeps aligned colors aligned |
| PointClouds.PointCloud.constructor | rscan-desktop/src-tauri/src/point_cloud.rs:12-18 | a new cloud has no points, colors or normals |
| PointClouds.PointCloud.FromPly | rscan-desktop/src-tauri/src/point_cloud.rs:20-64 | a fresh cloud holding the parsed points and colors and no normals, or the parse error |
| PointClouds.PointCloud.ReadHeader | rscan-desktop/src-tauri/src/point_cloud.rs:25-41 | the header loop returns the header function's result |
| PointClouds.PointCloud.ReadBody | rscan-desktop/src-tauri/src/point_cloud.rs:43-62 | the body loop leaves the body function's points and colors in the cloud, or returns its error |
| PointClouds.PointCloud.ReadVertex | rscan-desktop/src-tauri/src/point_cloud.rs:47-61 | one body iteration written step by step agrees with the per-line reader |
| PointClouds.PointCloud.VoxelDownsample | rscan-desktop/src-tauri/src/point_cloud.rs:66-83 | the kept indices are a voxel selection; one point remains per voxel; it panics exactly as `DownsamplePanics` says; the new state is `Downsampled` |
| PointClouds.PointCloud.RemoveOutliers | rscan-desktop/src-tauri/src/point_cloud.rs:85-132 | the cloud is unchanged below `k` points and otherwise filtered by the outlier mask |
| Commands.MinFold | rscan-desktop/src-tauri/src/commands.rs:32-39 | `min[axis]` after the loop's `f32::min` steps over the points. Characterised by `MinFoldBelow`, `MinFoldAttained` |
| Commands.MaxFold | rscan-desktop/src-tauri/src/commands.rs:32-39 | `max[axis]` after the loop's `f32::max` steps over the points. Characterised by `MaxFoldAbove`, `MaxFoldAttained` |
| Commands.BoundsOf | rscan-desktop/src-tauri/src/commands.rs:29-41 | zeros for no points, else the folds started from the first point. Characterised by `BoundsEnclose`, `BoundsAttained` |
| Commands.LoadReport | rscan-desktop/src-tauri/src/commands.rs:43-47 | `point_count` is the number of points, `has_colors` is whether colors are non-empty, `bounds` is `BoundsOf` the points; `LoadPointCloud` returns it |
| Commands.OutlierK | rscan-desktop/src-tauri/src/commands.rs:77 | `outlier_k`, or 20 when absent; used by `AfterOutliers` |
| Commands.OutlierStd | rscan-desktop/src-tauri/src/commands.rs:78 | `outlier_std`, or 2.0 when absent; used by `AfterOutliers` |
| Commands.AfterVoxels | rscan-desktop/src-tauri/src/commands.rs:72-74 | the voxel step runs only when a voxel size is given |
| Commands.AfterOutliers | rscan-desktop/src-tauri/src/commands.rs:76-80 | the outlier step runs only when asked, with `k` defaulting to 20 and `std_ratio` to 2.0. Characterised with `AfterVoxels` by `PipelineKeepsAligned` |
| Commands.MinFoldBelow | rscan-desktop/src-tauri/src/commands.rs:32-39 | the folded minimum is at most every coordinate on its axis |
| Commands.MaxFoldAbove | rscan-desktop/src-tauri/src/commands.rs:32-39 | the folded maximum is at least every coordinate on its axis |
| Commands.MinFoldAttained | rscan-desktop/src-tauri/src/commands.rs:32-39 | the folded minimum is the start value or the coordinate of some point; `BoundsAttained` turns this into a point's coordinate, since the fold starts from the first point |
| Commands.MaxFoldAttained | rscan-desktop/src-tauri/src/commands.rs:32-39 | the folded maximum is the start value or the coordinate of some point; `BoundsAttained` turns this into a point's coordinate, since the fold starts from the first point |
| Commands.BoundsEnclose | rscan-desktop/src-tauri/src/commands.rs:29-41 | every point lies within the bounds on every axis |
| Commands.BoundsAttained | rscan-desktop/src-tauri/src/commands.rs:29-41 | for a non-empty cloud, each bound on each axis is reached by some point |
| Commands.FoldPoint | rscan-desktop/src-tauri/src/commands.rs:35-38 | one step of the inner loop lowers `min` and raises `max` to the point on all three axes |
| Commands.ComputeBounds | rscan-desktop/src-tauri/src/commands.rs:29-41 | the loop computes the bounds function: zeros for no points, else bounds enclosing every point |
| Commands.PipelineKeepsAligned | rscan-desktop/src-tauri/src/commands.rs:72-80 | processing never adds points or touches normals; aligned colors never panic and stay aligned |
| Commands.AppState.constructor | rscan-desktop/src-tauri/src/lib.rs:12-15 | no cloud and the default status (empty stage, 0 progress, 0 points) |
| Commands.AppState.LoadPointCloud | rscan-desktop/src-tauri/src/commands.rs:26-51 | a parse error is returned with the stored cloud untouched; otherwise the parsed cloud is stored and its count, color flag and bounds are returned; the status is unchanged |
| Commands.AppState.ProcessPointCloud | rscan-desktop/src-tauri/src/commands.rs:62-90 | fails with no cloud and leaves the status; otherwise it is voxel then outliers as the options and defaults (20, 2.0) ask, status `Complete` at 1 with the final count, which is returned; or the colors panic after `Processing` |
| Commands.AppState.GetProcessingStatus | rscan-desktop/src-tauri/src/commands.rs:93-95 | returns the current status and changes nothing |

## Left out

- **File access.** Opening and reading the file is left out, and so are the I/O and
  invalid-UTF-8 errors of `read_line`: the reader takes the file's lines.
- **32-bit floats.** Coordinates, distances and bounds are reals, so `f32` rounding, NaN
  and infinities are not modelled. Float parsing, `sqrt` and the voxel key (a
  floating-point division, `floor` and a saturating cast to `i32`) are parameters. The
  comparisons in `f32::min` and `f32::max` are ordinary real comparisons.
- **The hash map.** `HashMap` hashing and its real iteration order are left out. Any order
  may be chosen.
- **Concurrency and the application shell.** Locking the two `Mutex`es, lock poisoning,
  `async` scheduling, Tauri's command dispatch and serde serialisation are left out.
  `AppState` is one object.
- **Error strings.** The only `String` errors of `from_ply`, and so of `load_point_cloud`,
  come from I/O, through `map_err(|e| e.to_string())`. They are left out with file access.
  `PlyError` stands for the panics and the endless loop instead, as described under
  modelling choices. The one other `String` error, `process_point_cloud`'s
  "No point cloud loaded", is modelled as `Failed(NoCloudMessage)`.
- **Unwinding.** A panic in the source unwinds the command. For the voxel step's
  `self.colors[i]` panic, the model instead returns `Panicked` and leaves the cloud and
  status as they were at the panic. The PLY reader's panics are `PlyError` values.
- Outliers.Mean: the mean of no values is 0, where `f32` gives NaN. `remove_outliers` only
  reaches it on an empty cloud, where the result is empty either way.
- PointClouds.PointCloud.ReadBody: requires a new, empty cloud, which is the only cloud
  `from_ply` reads into. It takes the per-line reader as a parameter. `FromPly` passes
  `Reader(hasColor, parseCoord)`. `ReadVertex` is that reader's step-by-step form, proved
  equal to it. `ReadBody` does not call it: it reads each line through the reader function.
- PlyLayout.ParseOfLayout: the writer it relies on is not part of the application, and it
  covers only the files that writer produces. These have one `element vertex` line, the
  `red`/`green`/`blue` properties when colored, and six fields per vertex line in a
  colored file.
- **Normals.** Normals are never filled by the source; the model carries them unchanged.
- **The rest of `lib.rs`.** The plugin setup and the Tauri run loop in
  `rscan-desktop/src-tauri/src/lib.rs` are not part of this model.

=== FILE: commands.dfy ===
/**
 * The commands the viewer's front end invokes on the shared `AppState`: load a PLY file
 * and report its size, colors and bounds; run the selected filters on the loaded cloud;
 * read the processing status. The state is taken as owned by one caller at a time.
 */
module Commands {
  import opened Outcomes
  import opened Points
  import opened Ply
  import opened Voxels
  import opened Outliers
  import opened PointClouds

  /** `[min, max]`: the axis-aligned box around the points. */
  datatype Bounds = Bounds(min: Vec3, max: Vec3)

  /** What `load_point_cloud` reports. */
  datatype LoadResult = LoadResult(pointCount: nat, hasColors: bool, bounds: Bounds)

  /** `ProcessingStatus`; its `Default` is the empty stage, progress 0, no points. */
  datatype ProcessingStatus = ProcessingStatus(stage: string, progress: real, pointCount: nat)

  const InitialStatus: ProcessingStatus := ProcessingStatus("", 0.0, 0)

  /** `ProcessOptions`, as the front end sends them. */
  datatype ProcessOptions = ProcessOptions(
    voxelSize: Option<real>, removeOutliers: bool, outlierK: Option<nat>, outlierStd: Option<real>)

  const DefaultOutlierK: nat := 20
  const DefaultOutlierStd: real := 2.0
  const NoCloudMessage: string := "No point cloud loaded"

  /** How `process_point_cloud` ends. */
  datatype ProcessOutcome =
    | Processed(pointCount: nat) // `Ok(cloud.points.len())`
    | Failed(message: string)    // `Err(..)`
    | Panicked                   // the color re-indexing of the voxel filter panicked

  /** `f32::min` and `f32::max` on numbers. */
  function Smaller(a: real, b: real): real {
    if b < a then b else a
  }

  function Larger(a: real, b: real): real {
    if b > a then b else a
  }

  /** `min[axis]` after folding `min[axis].min(p[axis])` over `ps`, starting from `m`. */
  function MinFold(m: real, ps: seq<Vec3>, axis: nat): real
    requires axis < 3
  {
    if ps == [] then m else Smaller(MinFold(m, ps[..|ps| - 1], axis), ps[|ps| - 1].At(axis))
  }

  /** `max[axis]` after folding `max[axis].max(p[axis])` over `ps`, starting from `m`. */
  function MaxFold(m: real, ps: seq<Vec3>, axis: nat): real
    requires axis < 3
  {
    if ps == [] then m else Larger(MaxFold(m, ps[..|ps| - 1], axis), ps[|ps| - 1].At(axis))
  }

  /** The bounds `load_point_cloud` reports: both zero for no points, else the folds from `points[0]`. */
  function BoundsOf(points: seq<Vec3>): Bounds {
    if points == [] then Bounds(Origin, Origin)
    else
      var p := points[0];
      Bounds(Vec3(MinFold(p.x, points, 0), MinFold(p.y, points, 1), MinFold(p.z, points, 2)),
             Vec3(MaxFold(p.x, points, 0), MaxFold(p.y, points, 1), MaxFold(p.z, points, 2)))
  }

  /** The fold never exceeds its start nor any point's coordinate. */
  lemma {:induction false} MinFoldBelow(m: real, ps: seq<Vec3>, axis: nat)
    requires axis < 3
    ensures MinFold(m, ps, axis) <= m
    ensures forall i :: 0 <= i < |ps| ==> MinFold(m, ps, axis) <= ps[i].At(axis)
  {
    if ps != [] {
      var n := |ps| - 1;
      MinFoldBelow(m, ps[..n], axis);
      forall i | 0 <= i < n ensures MinFold(m, ps, axis) <= ps[i].At(axis) {
        assert ps[..n][i] == ps[i];
      }
    }
  }

  lemma {:induction false} MaxFoldAbove(m: real, ps: seq<Vec3>, axis: nat)
    requires axis < 3
    ensures MaxFold(m, ps, axis) >= m
    ensures forall i :: 0 <= i < |ps| ==> MaxFold(m, ps, axis) >= ps[i].At(axis)
  {
    if ps != [] {
      var n := |ps| - 1;
      MaxFoldAbove(m, ps[..n], axis);
      forall i | 0 <= i < n ensures MaxFold(m, ps, axis) >= ps[i].At(axis) {
        assert ps[..n][i] == ps[i];
      }
    }
  }

  /** The fold ends on its start or on the coordinate of one of the points. */
  lemma {:induction false} MinFoldAttained(m: real, ps: seq<Vec3>, axis: nat) returns (i: int)
    requires axis < 3
    ensures -1 <= i < |ps|
    ensures MinFold(m, ps, axis) == if i < 0 then m else ps[i].At(axis)
  {
    if ps == [] {
      i := -1;
    } else {
      var n := |ps| - 1;
      var j := MinFoldAttained(m, ps[..n], axis);
      if ps[n].At(axis) < MinFold(m, ps[..n], axis) {
        i := n;
      } else {
        i := j;
        if j >= 0 {
          assert ps[..n][j] == ps[j];
        }
      }
    }
  }

  lemma {:induction false} MaxFoldAttained(m: real, ps: seq<Vec3>, axis: nat) returns (i: int)
    requires axis < 3
    ensures -1 <= i < |ps|
    ensures MaxFold(m, ps, axis) == if i < 0 then m else ps[i].At(axis)
  {
    if ps == [] {
      i := -1;
    } else {
      var n := |ps| - 1;
      var j := MaxFoldAttained(m, ps[..n], axis);
      if ps[n].At(axis) > MaxFold(m, ps[..n], axis) {
        i := n;
      } else {
        i := j;
        if j >= 0 {
          assert ps[..n][j] == ps[j];
        }
      }
    }
  }

  /** One more point folds into the running minimum and maximum. */
  lemma FoldStep(m: real, ps: seq<Vec3>, j: nat, axis: nat)
    requires j < |ps| && axis < 3
    ensures MinFold(m, ps[..j + 1], axis) == Smaller(MinFold(m, ps[..j], axis), ps[j].At(axis))
    ensures MaxFold(m, ps[..j + 1], axis) == Larger(MaxFold(m, ps[..j], axis), ps[j].At(axis))
  {
    assert ps[..j + 1][..j] == ps[..j];
  }

  /** Every point lies inside the bounds, on every axis. */
  lemma BoundsEnclose(points: seq<Vec3>, i: nat, axis: nat)
    requires i < |points| && axis < 3
    ensures BoundsOf(points).min.At(axis) <= points[i].At(axis) <= BoundsOf(points).max.At(axis)
  {
    var p := points[0];
    MinFoldBelow(p.At(axis), points, axis);
    MaxFoldAbove(p.At(axis), points, axis);
  }

  /** Each bound is the coordinate of some point: the box is as tight as it can be. */
  lemma BoundsAttained(points: seq<Vec3>, axis: nat) returns (lo: nat, hi: nat)
    requires points != [] && axis < 3
    ensures lo < |points| && BoundsOf(points).min.At(axis) == points[lo].At(axis)
    ensures hi < |points| && BoundsOf(points).max.At(axis) == points[hi].At(axis)
  {
    var p := points[0];
    var i := MinFoldAttained(p.At(axis), points, axis);
    var j := MaxFoldAttained(p.At(axis), points, axis);
    lo := if i < 0 then 0 else i;
    hi := if j < 0 then 0 else j;
  }

  /** The inner loop of the bounds computation: `min[i]` and `max[i]` take in `p[i]` for `i in 0..3`. */
  method FoldPoint(lo: array<real>, hi: array<real>, p: Vec3)
    requires lo.Length == 3 && hi.Length == 3 && lo != hi
    modifies lo, hi
    ensures forall a :: 0 <= a < 3 ==> lo[a] == Smaller(old(lo[a]), p.At(a)) && hi[a] == Larger(old(hi[a]), p.At(a))
  {
    for a := 0 to 3
      invariant forall c :: 0 <= c < a ==> lo[c] == Smaller(old(lo[c]), p.At(c)) && hi[c] == Larger(old(hi[c]), p.At(c))
      invariant forall c :: a <= c < 3 ==> lo[c] == old(lo[c]) && hi[c] == old(hi[c])
    {
      lo[a] := Smaller(lo[a], p.At(a));
      hi[a] := Larger(hi[a], p.At(a));
    }
  }

  /**
   * The bounds computation of `load_point_cloud`: `[[0.0; 3], [0.0; 3]]` for no points,
   * otherwise `min` and `max` start at the first point and are lowered and raised axis by
   * axis over all points.
   */
  method ComputeBounds(points: seq<Vec3>) returns (b: Bounds)
    ensures b == BoundsOf(points)
    ensures points == [] ==> b == Bounds(Origin, Origin)
    ensures forall i, a :: 0 <= i < |points| && 0 <= a < 3 ==> b.min.At(a) <= points[i].At(a) <= b.max.At(a)
  {
    if points == [] {
      return Bounds(Origin, Origin);
    }
    var first := points[0];
    var lo := new real[3];
    var hi := new real[3];
    lo[0], lo[1], lo[2] := first.x, first.y, first.z;
    hi[0], hi[1], hi[2] := first.x, first.y, first.z;
    for j := 0 to |points|
      invariant forall a :: 0 <= a < 3 ==>
        lo[a] == MinFold(first.At(a), points[..j], a) && hi[a] == MaxFold(first.At(a), points[..j], a)
    {
      forall a | 0 <= a < 3 {
        FoldStep(first.At(a), points, j, a);
      }
      FoldPoint(lo, hi, points[j]);
    }
    assert points[..|points|] == points;
    b := Bounds(Vec3(lo[0], lo[1], lo[2]), Vec3(hi[0], hi[1], hi[2]));
    forall i, a | 0 <= i < |points| && 0 <= a < 3
      ensures b.min.At(a) <= points[i].At(a) <= b.max.At(a)
    {
      BoundsEnclose(points, i, a);
    }
  }

  /** The report for a loaded cloud: its size, whether it has colors, its bounds. */
  function LoadReport(c: Snapshot): LoadResult {
    LoadResult(|c.points|, c.colors != [], BoundsOf(c.points))
  }

  /** The `k` and `std_ratio` outlier removal uses: the options' values, else 20 and 2.0. */
  function OutlierK(options: ProcessOptions): nat {
    options.outlierK.GetOr(DefaultOutlierK)
  }

  function OutlierStd(options: ProcessOptions): real {
    options.outlierStd.GetOr(DefaultOutlierStd)
  }

  /** The cloud after the voxel step: downsampled by `indices` when a voxel size is given. */
  function AfterVoxels(c: Snapshot, options: ProcessOptions, indices: seq<nat>): Snapshot
    requires forall j :: 0 <= j < |indices| ==> indices[j] < |c.points|
  {
    if options.voxelSize.Some? then Downsampled(c, indices) else c
  }

  /** The cloud after the outlier step, which follows the voxel step and runs only when asked. */
  function AfterOutliers(c: Snapshot, options: ProcessOptions, sqrt: real -> real): Snapshot {
    if options.removeOutliers then OutliersRemoved(c, OutlierK(options), OutlierStd(options), sqrt) else c
  }

  /**
   * Processing never adds points, and a cloud whose colors are aligned never panics and
   * stays aligned.
   */
  lemma PipelineKeepsAligned(c: Snapshot, options: ProcessOptions, key: Vec3 -> VoxelKey, indices: seq<nat>, sqrt: real -> real)
    requires options.voxelSize.Some? ==> IsVoxelSelection(c.points, key, indices)
    requires forall j :: 0 <= j < |indices| ==> indices[j] < |c.points|
    ensures var mid := AfterVoxels(c, options, indices);
      var after := AfterOutliers(mid, options, sqrt);
      |after.points| <= |mid.points| <= |c.points| && after.normals == c.normals
      && (ColorsAligned(c) ==> (options.voxelSize.Some? ==> !DownsamplePanics(c.colors, indices)) && ColorsAligned(after))
  {
    var mid := AfterVoxels(c, options, indices);
    if options.voxelSize.Some? {
      DownsampleShrinks(c, key, indices);
    }
    OutliersShrink(mid, OutlierK(options), OutlierStd(options), sqrt);
  }

  class AppState {
    var cloud: Option<PointCloud>
    var status: ProcessingStatus

    /** The state the application starts with: no cloud, the default status. */
    constructor ()
      ensures cloud == None && status == InitialStatus
    {
      cloud := None;
      status := InitialStatus;
    }

    /** The stored cloud object, if any. */
    function Stored(): set<object>
      reads this
    {
      if cloud.Some? then {cloud.value} else {}
    }

    /**
     * `load_point_cloud` on the lines of a file. A parse error is returned before the
     * stored cloud is touched; otherwise the parsed cloud replaces it and its report is
     * returned. The status is not changed.
     */
    method LoadPointCloud(lines: seq<string>, parseCoord: string -> Option<real>) returns (r: Result<LoadResult, PlyError>)
      modifies this
      ensures status == old(status)
      ensures ParsePly(lines, parseCoord).Err? ==>
        r == Err(ParsePly(lines, parseCoord).error) && cloud == old(cloud)
      ensures ParsePly(lines, parseCoord).Ok? ==>
        var body := ParsePly(lines, parseCoord).value;
        cloud.Some? && fresh(cloud.value) && cloud.value.State() == Snapshot(body.points, body.colors, [])
        && r == Ok(LoadReport(cloud.value.State()))
    {
      var parsed := PointCloud.FromPly(lines, parseCoord);
      if parsed.Err? {
        return Err(parsed.error);
      }
      var loaded := parsed.value;
      var bounds := ComputeBounds(loaded.points);
      r := Ok(LoadResult(|loaded.points|, loaded.colors != [], bounds));
      cloud := Some(loaded);
    }

    /**
     * `process_point_cloud`. Without a stored cloud it fails and leaves the status alone.
     * Otherwise the status becomes `Processing` at 0, the voxel filter runs when a size is
     * given (`voxelKey` maps the size to the voxel of a point) and then the outlier filter
     * when asked; the status ends `Complete` at 1 with the final point count, which is
     * also returned. `indices` are the voxel filter's kept indices, when it runs.
     */
    method ProcessPointCloud(options: ProcessOptions, voxelKey: real -> Vec3 -> VoxelKey, sqrt: real -> real)
      returns (r: ProcessOutcome, ghost indices: seq<nat>)
      modifies this, Stored()
      ensures cloud == old(cloud)
      ensures old(cloud).None? ==> r == Failed(NoCloudMessage) && status == old(status)
      ensures old(cloud).Some? ==>
        var before := old(cloud.value.State());
        (options.voxelSize.Some? ==> IsVoxelSelection(before.points, voxelKey(options.voxelSize.value), indices))
        && (forall j :: 0 <= j < |indices| ==> indices[j] < |before.points|)
        && (r.Panicked? <==> options.voxelSize.Some? && DownsamplePanics(before.colors, indices))
        && (r.Panicked? ==>
              cloud.value.State() == Downsampled(before, indices)
              && status == ProcessingStatus("Processing", 0.0, old(status).pointCount))
        && (!r.Panicked? ==>
              var after := AfterOutliers(AfterVoxels(before, options, indices), options, sqrt);
              cloud.value.State() == after && r == Processed(|after.points|)
              && status == ProcessingStatus("Complete", 1.0, |after.points|))
    {
      indices := [];
      if cloud.None? {
        return Failed(NoCloudMessage), indices;
      }
      var c := cloud.value;
      status := status.(stage := "Processing", progress := 0.0);
      if options.voxelSize.Some? {
        var kept, panicked := c.VoxelDownsample(voxelKey(options.voxelSize.value));
        indices := kept;
        if panicked {
          return Panicked, indices;
        }
      }
      if options.removeOutliers {
        var k := options.outlierK.GetOr(DefaultOutlierK);
        var std := options.outlierStd.GetOr(DefaultOutlierStd);
        c.RemoveOutliers(k, std, sqrt);
      }
      status := status.(stage := "Complete", progress := 1.0, pointCount := |c.points|);
      r := Processed(|c.points|);
    }

    /** `get_processing_status`: a copy of the status; nothing changes. */
    method GetProcessingStatus() returns (s: ProcessingStatus)
      ensures s == status
    {
      s := status;
    }
  }
}

=== FILE: indexing.dfy ===
/** Index lists into sequences: gathering the elements they name, and rearranging them. */
module Indexing {

  /** `indices.iter().map(|&i| xs[i]).collect()`. */
  function Gather<T>(xs: seq<T>, indices: seq<nat>): (r: seq<T>)
    requires forall j :: 0 <= j < |indices| ==> indices[j] < |xs|
    ensures |r| == |indices|
  {
    seq(|indices|, j requires 0 <= j < |indices| => xs[indices[j]])
  }

  /** In a sequence without repetitions, each element occurs once. */
  lemma {:induction false} DistinctOccursOnce(s: seq<nat>)
    requires forall a, b :: 0 <= a < b < |s| ==> s[a] != s[b]
    ensures forall x :: multiset(s)[x] == if x in s then 1 else 0
  {
    if s != [] {
      var n := |s| - 1;
      DistinctOccursOnce(s[..n]);
      assert s == s[..n] + [s[n]];
      assert multiset(s) == multiset(s[..n]) + multiset{s[n]};
      assert s[n] !in s[..n];
    }
  }

  lemma GatherSplit<T>(xs: seq<T>, left: seq<nat>, right: seq<nat>)
    requires forall j :: 0 <= j < |left| ==> left[j] < |xs|
    requires forall j :: 0 <= j < |right| ==> right[j] < |xs|
    ensures Gather(xs, left + right) == Gather(xs, left) + Gather(xs, right)
  {
  }

  /** Taking one occurrence of `x` out of both sides keeps two index lists rearrangements of each other. */
  lemma RemoveOccurrence(is1: seq<nat>, left: seq<nat>, x: nat, right: seq<nat>)
    requires is1 != [] && is1[0] == x
    requires multiset(is1) == multiset(left + [x] + right)
    ensures multiset(is1[1..]) == multiset(left + right)
  {
    assert is1 == [x] + is1[1..];
    assert multiset(is1) == multiset([x]) + multiset(is1[1..]);
    assert multiset(left + [x] + right) == multiset(left + [x]) + multiset(right);
    assert multiset(left + [x]) == multiset(left) + multiset([x]);
    assert multiset(left + right) == multiset(left) + multiset(right);
    forall y ensures multiset(is1[1..])[y] == multiset(left + right)[y] {
      assert multiset(is1)[y] == multiset(left + [x] + right)[y];
    }
  }

  /** Gathering by two rearrangements of the same indices gives rearrangements of one result. */
  lemma {:induction false} GatherPermutes<T>(xs: seq<T>, is1: seq<nat>, is2: seq<nat>)
    requires forall j :: 0 <= j < |is1| ==> is1[j] < |xs|
    requires multiset(is1) == multiset(is2)
    ensures forall j :: 0 <= j < |is2| ==> is2[j] < |xs|
    ensures multiset(Gather(xs, is1)) == multiset(Gather(xs, is2))
  {
    forall j | 0 <= j < |is2| ensures is2[j] < |xs| {
      assert is2[j] in multiset(is1);
    }
    if is1 == [] {
      assert is2 == [];
    } else {
      var x := is1[0];
      assert x in multiset(is2);
      var p :| 0 <= p < |is2| && is2[p] == x;
      var left, right := is2[..p], is2[p + 1..];
      assert is2 == left + [x] + right;
      RemoveOccurrence(is1, left, x, right);
      var tail := is1[1..];
      GatherPermutes(xs, tail, left + right);
      assert is1 == [x] + tail;
      GatherSplit(xs, [x], tail);
      GatherSplit(xs, left + [x], right);
      GatherSplit(xs, left, [x]);
      GatherSplit(xs, left, right);
      MiddleMoves(Gather(xs, [x]), Gather(xs, tail), Gather(xs, left), Gather(xs, right));
    }
  }

  /** `mid + tail` and `left + mid + right` hold the same elements when `tail` and `left + right` do. */
  lemma MiddleMoves<T>(mid: seq<T>, tail: seq<T>, left: seq<T>, right: seq<T>)
    requires multiset(tail) == multiset(left + right)
    ensures multiset(mid + tail) == multiset(left + mid + right)
  {
    assert multiset(left + mid + right) == multiset(left + mid) + multiset(right);
    assert multiset(left + mid) == multiset(left) + multiset(mid);
    assert multiset(left + right) == multiset(left) + multiset(right);
  }

  /** A sequence without repetitions has as many distinct elements as it is long. */
  lemma {:induction false} DistinctCard<T>(s: seq<T>)
    requires forall a, b :: 0 <= a < b < |s| ==> s[a] != s[b]
    ensures |set x | x in s| == |s|
  {
    if s != [] {
      var n := |s| - 1;
      var front := s[..n];
      DistinctCard(front);
      assert (set x | x in s) == (set x | x in front) + {s[n]};
      assert s[n] !in (set x | x in front);
    }
  }

  /** The positions whose mask entry is true, in increasing order. */
  function Kept(mask: seq<bool>): seq<nat> {
    if mask == [] then []
    else
      var n := |mask| - 1;
      Kept(mask[..n]) + (if mask[n] then [n] else [])
  }

  /** Every kept position is a true position of the mask. */
  lemma {:induction false} KeptAreTrue(mask: seq<bool>)
    ensures forall j :: 0 <= j < |Kept(mask)| ==> Kept(mask)[j] < |mask| && mask[Kept(mask)[j]]
  {
    if mask != [] {
      var n := |mask| - 1;
      KeptAreTrue(mask[..n]);
    }
  }

  /** No more positions are kept than the mask has. */
  lemma {:induction false} KeptLength(mask: seq<bool>)
    ensures |Kept(mask)| <= |mask|
  {
    if mask != [] {
      KeptLength(mask[..|mask| - 1]);
    }
  }

  /** Every true position of the mask is kept. */
  lemma {:induction false} TrueAreKept(mask: seq<bool>)
    ensures forall i :: 0 <= i < |mask| && mask[i] ==> i in Kept(mask)
  {
    if mask != [] {
      var n := |mask| - 1;
      var front := mask[..n];
      TrueAreKept(front);
      forall i | 0 <= i < |mask| && mask[i] ensures i in Kept(mask) {
        if i < n {
          assert front[i];
        }
      }
    }
  }

  /** The kept positions come in increasing order. */
  lemma {:induction false} KeptIncreasing(mask: seq<bool>)
    ensures forall a, b :: 0 <= a < b < |Kept(mask)| ==> Kept(mask)[a] < Kept(mask)[b]
  {
    if mask != [] {
      var n := |mask| - 1;
      KeptIncreasing(mask[..n]);
      KeptAreTrue(mask[..n]);
    }
  }

  /** `Kept` lists exactly the true positions of the mask, each once and in increasing order. */
  lemma KeptExactly(mask: seq<bool>)
    ensures var ks := Kept(mask);
      (forall j :: 0 <= j < |ks| ==> ks[j] < |mask| && mask[ks[j]])
      && (forall i :: 0 <= i < |mask| ==> (mask[i] <==> i in ks))
      && (forall a, b :: 0 <= a < b < |ks| ==> ks[a] < ks[b])
  {
    KeptAreTrue(mask);
    TrueAreKept(mask);
    KeptIncreasing(mask);
  }

  /** Every kept position lies inside the mask. */
  predicate KeptBelow(mask: seq<bool>) {
    forall j :: 0 <= j < |Kept(mask)| ==> Kept(mask)[j] < |mask|
  }
}

=== FILE: outcomes.dfy ===
/** The optional-value and error-carrying result types shared by the other modules. */
module Outcomes {

  datatype Option<+T> = None | Some(value: T) {
    /** The wrapped value, or `default` when there is none (Rust's `unwrap_or`). */
    function GetOr(default: T): T {
      match this
      case Some(v) => v
      case None => default
    }
  }

  datatype Result<+T, +E> = Ok(value: T) | Err(error: E)
}

=== FILE: outliers.dfy ===
/**
 * The statistics and the filter of `PointCloud::remove_outliers`. Each point's distance
 * to the centroid is compared with `mean_dist + std_ratio * std` over all distances; the
 * points below that threshold are kept, in order, through `zip(&mask).filter(..)`.
 *
 * The arithmetic is done on reals; the square root is a parameter, standing for
 * `f32::sqrt`.
 */
module Outliers {
  import opened Points
  import opened Indexing

  function Sum(xs: seq<real>): real {
    if xs == [] then 0.0 else Sum(xs[..|xs| - 1]) + xs[|xs| - 1]
  }

  /**
   * `xs.iter().sum() / xs.len()`. For an empty sequence the source divides zero by zero;
   * its result is then never looked at, and the model takes 0.
   */
  function Mean(xs: seq<real>): real {
    if xs == [] then 0.0 else Sum(xs) / (|xs| as real)
  }

  /** Coordinate `axis` of every point. */
  function Column(points: seq<Vec3>, axis: nat): (c: seq<real>)
    requires axis < 3
    ensures |c| == |points|
  {
    seq(|points|, i requires 0 <= i < |points| => points[i].At(axis))
  }

  /** `mean`: the centroid of the points. */
  function Centroid(points: seq<Vec3>): Vec3 {
    Vec3(Mean(Column(points, 0)), Mean(Column(points, 1)), Mean(Column(points, 2)))
  }

  function Square(x: real): real {
    x * x
  }

  /** The Euclidean distance between `p` and `q`, with `sqrt` for the square root. */
  function Distance(p: Vec3, q: Vec3, sqrt: real -> real): real {
    sqrt(Square(p.x - q.x) + Square(p.y - q.y) + Square(p.z - q.z))
  }

  /** `distances`: each point's distance to the centroid. */
  function Distances(points: seq<Vec3>, sqrt: real -> real): (ds: seq<real>)
    ensures |ds| == |points|
  {
    var c := Centroid(points);
    seq(|points|, i requires 0 <= i < |points| => Distance(points[i], c, sqrt))
  }

  /** `std`: the population standard deviation of the distances around `mean_dist`. */
  function StdDev(ds: seq<real>, sqrt: real -> real): real {
    var m := Mean(ds);
    sqrt(Mean(seq(|ds|, i requires 0 <= i < |ds| => Square(ds[i] - m))))
  }

  /** `threshold = mean_dist + std_ratio * std`. */
  function Threshold(ds: seq<real>, stdRatio: real, sqrt: real -> real): real {
    Mean(ds) + stdRatio * StdDev(ds, sqrt)
  }

  /** Which of the values lie strictly below `t`. */
  function Below(ds: seq<real>, t: real): (mask: seq<bool>)
    ensures |mask| == |ds|
  {
    seq(|ds|, i requires 0 <= i < |ds| => ds[i] < t)
  }

  /** `mask`: a point is kept when its distance lies strictly below the threshold. */
  function Mask(points: seq<Vec3>, stdRatio: real, sqrt: real -> real): (mask: seq<bool>)
    ensures |mask| == |points|
  {
    var ds := Distances(points, sqrt);
    Below(ds, Threshold(ds, stdRatio, sqrt))
  }

  function Min(a: nat, b: nat): nat {
    if a <= b then a else b
  }

  /**
   * `xs.iter().zip(&mask).filter(|(_, &m)| m).map(|(x, _)| *x).collect()`: the elements
   * whose mask entry is true, in order; `zip` stops at the end of the shorter side.
   */
  function Select<T>(xs: seq<T>, mask: seq<bool>): seq<T>
    decreases Min(|xs|, |mask|)
  {
    var n := Min(|xs|, |mask|);
    if n == 0 then []
    else Select(xs[..n - 1], mask[..n - 1]) + (if mask[n - 1] then [xs[n - 1]] else [])
  }

  /** Filtering by the mask is gathering at the kept positions: the result is a subsequence, in order. */
  lemma {:induction false} SelectIsGather<T>(xs: seq<T>, mask: seq<bool>)
    requires |xs| == |mask|
    ensures KeptBelow(mask)
    ensures Select(xs, mask) == Gather(xs, Kept(mask))
  {
    KeptExactly(mask);
    if mask != [] {
      var n := |mask| - 1;
      SelectIsGather(xs[..n], mask[..n]);
      KeptExactly(mask[..n]);
      GatherPrefix(xs, n, Kept(mask[..n]));
      var tail: seq<nat> := if mask[n] then [n] else [];
      GatherSplit(xs, Kept(mask[..n]), tail);
    }
  }

  /** Gathering from a prefix of `xs` at indices below its length reads the same elements. */
  lemma GatherPrefix<T>(xs: seq<T>, n: nat, indices: seq<nat>)
    requires n <= |xs|
    requires forall j :: 0 <= j < |indices| ==> indices[j] < n
    ensures Gather(xs[..n], indices) == Gather(xs, indices)
  {
  }

  /** `zip` truncates: filtering looks only at the positions both sides have. */
  lemma {:induction false} SelectTruncates<T>(xs: seq<T>, mask: seq<bool>)
    ensures var n := Min(|xs|, |mask|);
      Select(xs, mask) == Select(xs[..n], mask[..n])
  {
    var n := Min(|xs|, |mask|);
    assert xs[..n][..n] == xs[..n] && mask[..n][..n] == mask[..n];
    if n > 0 {
      assert xs[..n][..n - 1] == xs[..n - 1] && mask[..n][..n - 1] == mask[..n - 1];
    }
  }

  /** As many elements survive as the mask has true entries. */
  lemma SelectLength<T>(xs: seq<T>, mask: seq<bool>)
    requires |xs| == |mask|
    ensures |Select(xs, mask)| == |Kept(mask)|
  {
    SelectIsGather(xs, mask);
  }

  /** Filtering two equally long sequences by one mask keeps them equally long, and pairs stay paired. */
  lemma SelectKeepsPairs<S, T>(xs: seq<S>, ys: seq<T>, mask: seq<bool>)
    requires |xs| == |mask| && |ys| == |mask|
    ensures var ks := Kept(mask);
      |Select(xs, mask)| == |Select(ys, mask)| == |ks|
      && forall j :: 0 <= j < |ks| ==>
           (ks[j] < |mask| && Select(xs, mask)[j] == xs[ks[j]] && Select(ys, mask)[j] == ys[ks[j]])
  {
    SelectIsGather(xs, mask);
    SelectIsGather(ys, mask);
  }

  /** Values that are all at least `bound` sum to at least their count times `bound`. */
  lemma {:induction false} SumAtLeast(xs: seq<real>, bound: real)
    requires forall i :: 0 <= i < |xs| ==> xs[i] >= bound
    ensures Sum(xs) >= (|xs| as real) * bound
  {
    if xs != [] {
      var n := |xs| - 1;
      SumAtLeast(xs[..n], bound);
      assert (|xs| as real) * bound == (n as real) * bound + bound;
    }
  }

  /** ... and to strictly more when one of them exceeds `bound`. */
  lemma {:induction false} SumAbove(xs: seq<real>, bound: real, k: nat)
    requires forall i :: 0 <= i < |xs| ==> xs[i] >= bound
    requires k < |xs| && xs[k] > bound
    ensures Sum(xs) > (|xs| as real) * bound
  {
    var n := |xs| - 1;
    var front := xs[..n];
    assert Sum(xs) == Sum(front) + xs[n];
    assert (|xs| as real) * bound == (n as real) * bound + bound;
    if k == n {
      SumAtLeast(front, bound);
    } else {
      assert front[k] > bound;
      SumAbove(front, bound, k);
    }
  }

  /** Unless all values are equal, some value lies strictly below their mean. */
  lemma BelowMean(xs: seq<real>, a: nat, b: nat) returns (i: nat)
    requires a < |xs| && b < |xs| && xs[a] != xs[b]
    ensures i < |xs| && xs[i] < Mean(xs)
  {
    var m := Mean(xs);
    if forall j :: 0 <= j < |xs| ==> xs[j] >= m {
      var c := if xs[a] > m then a else b;
      SumAbove(xs, m, c);
      assert false;
    }
    i :| 0 <= i < |xs| && xs[i] < m;
  }

  /** `r1 * s <= r2 * s` for a non-negative `s`. */
  lemma ScaleMonotone(r1: real, r2: real, s: real)
    requires r1 <= r2 && s >= 0.0
    ensures r1 * s <= r2 * s
  {
    assert r2 * s - r1 * s == (r2 - r1) * s;
  }

  /**
   * With a non-negative `std_ratio` and a non-negative standard deviation, the filter
   * keeps at least one point whenever not all distances are equal: the closest one lies
   * below the mean, and so below the threshold.
   */
  lemma SomePointSurvives(points: seq<Vec3>, stdRatio: real, sqrt: real -> real, a: nat, b: nat) returns (i: nat)
    requires stdRatio >= 0.0
    requires StdDev(Distances(points, sqrt), sqrt) >= 0.0
    requires a < |points| && b < |points|
    requires Distances(points, sqrt)[a] != Distances(points, sqrt)[b]
    ensures i < |points| && Mask(points, stdRatio, sqrt)[i]
  {
    var ds := Distances(points, sqrt);
    i := BelowMean(ds, a, b);
    ScaleMonotone(0.0, stdRatio, StdDev(ds, sqrt));
  }

  /** Values all equal to `d` have mean `d`. */
  lemma MeanOfConstant(xs: seq<real>, d: real)
    requires xs != []
    requires forall i :: 0 <= i < |xs| ==> xs[i] == d
    ensures Mean(xs) == d
  {
    SumOfConstant(xs, d);
  }

  /** Values that are all equal have standard deviation `sqrt(0)`. */
  lemma StdDevOfConstant(ds: seq<real>, sqrt: real -> real)
    requires ds != []
    requires forall i :: 0 <= i < |ds| ==> ds[i] == ds[0]
    ensures Mean(ds) == ds[0] && StdDev(ds, sqrt) == sqrt(0.0)
  {
    MeanOfConstant(ds, ds[0]);
    var m := Mean(ds);
    var sq := seq(|ds|, i requires 0 <= i < |ds| => Square(ds[i] - m));
    forall i | 0 <= i < |sq| ensures sq[i] == 0.0 {
      assert ds[i] == m;
    }
    MeanOfConstant(sq, 0.0);
  }

  /**
   * When every distance is the same and the square root of zero is zero, the strict
   * comparison drops every point: each distance equals the threshold. This holds in exact
   * arithmetic; in `f32` the rounded mean of equal distances can differ from them, and the
   * source may then keep points.
   */
  lemma EqualDistancesDropAll(points: seq<Vec3>, stdRatio: real, sqrt: real -> real)
    requires sqrt(0.0) == 0.0
    requires forall i :: 0 <= i < |points| ==> Distances(points, sqrt)[i] == Distances(points, sqrt)[0]
    ensures Kept(Mask(points, stdRatio, sqrt)) == []
  {
    var ds := Distances(points, sqrt);
    var mask := Mask(points, stdRatio, sqrt);
    if ds != [] {
      StdDevOfConstant(ds, sqrt);
      assert Threshold(ds, stdRatio, sqrt) == ds[0];
      forall i | 0 <= i < |mask| ensures !mask[i] {
        assert ds[i] == ds[0];
      }
    }
    NoneKept(mask);
  }

  /** An all-false mask keeps nothing. */
  lemma {:induction false} NoneKept(mask: seq<bool>)
    requires forall i :: 0 <= i < |mask| ==> !mask[i]
    ensures Kept(mask) == []
  {
    if mask != [] {
      var n := |mask| - 1;
      NoneKept(mask[..n]);
    }
  }

  lemma {:induction false} SumOfConstant(xs: seq<real>, c: real)
    requires forall i :: 0 <= i < |xs| ==> xs[i] == c
    ensures Sum(xs) == (|xs| as real) * c
  {
    if xs != [] {
      var n := |xs| - 1;
      SumOfConstant(xs[..n], c);
      assert (|xs| as real) * c == (n as real) * c + c;
    }
  }

  /** A larger `std_ratio` never removes more points, as long as the standard deviation is not negative. */
  lemma RatioMonotone(points: seq<Vec3>, r1: real, r2: real, sqrt: real -> real)
    requires r1 <= r2
    requires StdDev(Distances(points, sqrt), sqrt) >= 0.0
    ensures forall i :: 0 <= i < |points| && Mask(points, r1, sqrt)[i] ==> Mask(points, r2, sqrt)[i]
  {
    var ds := Distances(points, sqrt);
    ScaleMonotone(r1, r2, StdDev(ds, sqrt));
  }
}

=== FILE: ply.dfy ===
/**
 * What `PointCloud::from_ply` reads from an ASCII PLY file, as functions of the file's
 * lines. The header is scanned line by line until a line that trims to `end_header`;
 * the vertex count and the color flag are picked up on the way. Then exactly that many
 * body lines are read, one vertex each.
 *
 * Where the source panics (`unwrap` on a missing field or a malformed number, `vals[0]`
 * on a line with too few fields) or never stops (no `end_header` before the end of the
 * input, where `read_line` keeps yielding empty lines), the model gives a `PlyError`.
 */
module Ply {
  import opened Outcomes
  import opened Text
  import opened Points
  import opened Indexing

  datatype PlyError =
    | MissingEndHeader          // the input ends before a line that trims to `end_header`
    | BadVertexCount(line: nat) // an `element vertex` line whose third field is not an i32
    | MalformedVertex(vertex: nat) // body line `vertex` lacks a field or holds a bad number

  /** What the header scan leaves behind: `vertex_count`, `has_color`, and the first body line. */
  datatype Header = Header(vertexCount: int, hasColor: bool, bodyStart: nat)

  /** The points and colors pushed while reading the body. */
  datatype Body = Body(points: seq<Vec3>, colors: seq<Rgb>)

  predicate IsVertexElement(line: string) {
    StartsWith(line, "element vertex")
  }

  predicate MentionsColor(line: string) {
    Contains(line, "red")
  }

  predicate IsEndHeader(line: string) {
    Trim(line) == "end_header"
  }

  /** The third whitespace-separated field of the line, parsed as an `i32`. */
  function VertexCountField(line: string): Option<int> {
    var ts := Tokens(line);
    if |ts| < 3 then None else ParseI32(ts[2])
  }

  /** What the header loop looks at in one line, in the order it looks. */
  datatype HeaderLine = HeaderLine(vertexElement: bool, countField: Option<int>, mentionsColor: bool, endsHeader: bool)

  function Classify(line: string): HeaderLine {
    HeaderLine(IsVertexElement(line), VertexCountField(line), MentionsColor(line), IsEndHeader(line))
  }

  /** Every line of the input, classified. */
  function Classified(lines: seq<string>): (ks: seq<HeaderLine>)
    ensures |ks| == |lines| && forall j :: 0 <= j < |lines| ==> ks[j] == Classify(lines[j])
  {
    seq(|lines|, j requires 0 <= j < |lines| => Classify(lines[j]))
  }

  /**
   * The header loop from line `i` on, with `count` and `color` the values of
   * `vertex_count` and `has_color` so far. Each line is first checked for
   * `element vertex`, then for `red`, then for `end_header`.
   */
  function ScanHeaderFrom(ks: seq<HeaderLine>, i: nat, count: int, color: bool): Result<Header, PlyError>
    requires i <= |ks|
    decreases |ks| - i
  {
    if i == |ks| then Err(MissingEndHeader)
    else
      var k := ks[i];
      if k.vertexElement && k.countField.None? then Err(BadVertexCount(i))
      else
        var count' := if k.vertexElement then k.countField.value else count;
        var color' := color || k.mentionsColor;
        if k.endsHeader then Ok(Header(count', color', i + 1))
        else ScanHeaderFrom(ks, i + 1, count', color')
  }

  /** The header of the file, scanned from its first line with `vertex_count = 0`, `has_color = false`. */
  function HeaderOf(lines: seq<string>): Result<Header, PlyError> {
    ScanHeaderFrom(Classified(lines), 0, 0, false)
  }

  /** Line `i` as `read_line` yields it: past the end of the input, the empty line. */
  function LineAt(lines: seq<string>, i: nat): string {
    if i < |lines| then lines[i] else ""
  }

  /** Body line `i` of a body that starts at line `start`. */
  function BodyLine(lines: seq<string>, start: nat, i: nat): string {
    LineAt(lines, start + i)
  }

  /** The first three fields of the line as a position (`vals[0..3]`). */
  function PointOnLine(line: string, parseCoord: string -> Option<real>): Option<Vec3> {
    var ts := Tokens(line);
    if |ts| < 3 then None
    else
      var x, y, z := parseCoord(ts[0]), parseCoord(ts[1]), parseCoord(ts[2]);
      if x.Some? && y.Some? && z.Some? then Some(Vec3(x.value, y.value, z.value)) else None
  }

  /** Fields four to six of the line as a color (`vals[3..6]`, each a `u8`). */
  function ColorOnLine(line: string): Option<Rgb> {
    var ts := Tokens(line);
    if |ts| < 6 then None
    else
      var r, g, b := ParseU8(ts[3]), ParseU8(ts[4]), ParseU8(ts[5]);
      if r.Some? && g.Some? && b.Some? then Some(Rgb(r.value, g.value, b.value)) else None
  }

  /** A body line carries a color when the header mentions one and the line has six or more fields. */
  predicate CarriesColor(line: string, hasColor: bool) {
    hasColor && |Tokens(line)| >= 6
  }

  /**
   * One body line: its point, and its color when it carries one. `None` where the
   * source panics.
   */
  function VertexOf(line: string, hasColor: bool, parseCoord: string -> Option<real>): Option<(Vec3, seq<Rgb>)> {
    match PointOnLine(line, parseCoord)
    case None => None
    case Some(p) =>
      if !CarriesColor(line, hasColor) then Some((p, []))
      else
        match ColorOnLine(line)
        case None => None
        case Some(c) => Some((p, [c]))
  }

  /** What reading one body line gives: its point and its color (none or one), or `None`. */
  type LineReader = string -> Option<(Vec3, seq<Rgb>)>

  /** `VertexOf` as a reader, for a header with or without color. */
  function Reader(hasColor: bool, parseCoord: string -> Option<real>): LineReader {
    line => VertexOf(line, hasColor, parseCoord)
  }

  /** The first `n` body lines, starting at line `start`, read in order with `read`. */
  function BodyOf(lines: seq<string>, start: nat, n: nat, read: LineReader): Result<Body, PlyError> {
    if n == 0 then Ok(Body([], []))
    else
      match BodyOf(lines, start, n - 1, read)
      case Err(e) => Err(e)
      case Ok(b) =>
        match read(BodyLine(lines, start, n - 1))
        case None => Err(MalformedVertex(n - 1))
        case Some(v) => Ok(Body(b.points + [v.0], b.colors + v.1))
  }

  /** How often `for _ in 0..vertex_count` runs: never for a count below one. */
  function VertexTotal(count: int): nat {
    if count > 0 then count else 0
  }

  /** The whole file: its header, then as many body lines as the header announces. */
  function ParsePly(lines: seq<string>, parseCoord: string -> Option<real>): Result<Body, PlyError> {
    match HeaderOf(lines)
    case Err(e) => Err(e)
    case Ok(h) => BodyOf(lines, h.bodyStart, VertexTotal(h.vertexCount), Reader(h.hasColor, parseCoord))
  }

  // ---------------------------------------------------------------------------------
  // The header scan

  /** The values the loop carries into the next line when line `i` does not end the header. */
  function NextCount(ks: seq<HeaderLine>, i: nat, count: int): int
    requires i < |ks| && (ks[i].vertexElement ==> ks[i].countField.Some?)
  {
    if ks[i].vertexElement then ks[i].countField.value else count
  }

  lemma {:induction false} ScanStopsAtFirstEnd(ks: seq<HeaderLine>, i: nat, count: int, color: bool)
    requires i <= |ks|
    requires ScanHeaderFrom(ks, i, count, color).Ok?
    ensures var h := ScanHeaderFrom(ks, i, count, color).value;
      i < h.bodyStart <= |ks| && ks[h.bodyStart - 1].endsHeader
      && forall j :: i <= j < h.bodyStart - 1 ==> !ks[j].endsHeader
    decreases |ks| - i
  {
    if !ks[i].endsHeader {
      ScanStopsAtFirstEnd(ks, i + 1, NextCount(ks, i, count), color || ks[i].mentionsColor);
    }
  }

  lemma {:induction false} ScanColor(ks: seq<HeaderLine>, i: nat, count: int, color: bool)
    requires i <= |ks|
    requires ScanHeaderFrom(ks, i, count, color).Ok?
    ensures var h := ScanHeaderFrom(ks, i, count, color).value;
      h.bodyStart <= |ks| &&
      (h.hasColor <==> color || exists j :: i <= j < h.bodyStart && ks[j].mentionsColor)
    decreases |ks| - i
  {
    ScanStopsAtFirstEnd(ks, i, count, color);
    if !ks[i].endsHeader {
      ScanColor(ks, i + 1, NextCount(ks, i, count), color || ks[i].mentionsColor);
    }
  }

  /** No line in `from .. to` is an `element vertex` line. */
  predicate NoVertexElement(ks: seq<HeaderLine>, from: nat, to: nat)
    requires to <= |ks|
  {
    forall j :: from <= j < to ==> !ks[j].vertexElement
  }

  lemma {:induction false} ScanCountFields(ks: seq<HeaderLine>, i: nat, count: int, color: bool)
    requires i <= |ks|
    requires ScanHeaderFrom(ks, i, count, color).Ok?
    ensures var h := ScanHeaderFrom(ks, i, count, color).value;
      h.bodyStart <= |ks| &&
      forall j :: i <= j < h.bodyStart && ks[j].vertexElement ==> ks[j].countField.Some?
    decreases |ks| - i
  {
    ScanStopsAtFirstEnd(ks, i, count, color);
    if !ks[i].endsHeader {
      ScanCountFields(ks, i + 1, NextCount(ks, i, count), color || ks[i].mentionsColor);
    }
  }

  lemma {:induction false} ScanCount(ks: seq<HeaderLine>, i: nat, count: int, color: bool)
    requires i <= |ks|
    requires ScanHeaderFrom(ks, i, count, color).Ok?
    ensures var h := ScanHeaderFrom(ks, i, count, color).value;
      h.bodyStart <= |ks| &&
      (NoVertexElement(ks, i, h.bodyStart) ==> h.vertexCount == count) &&
      (forall j :: i <= j < h.bodyStart && ks[j].vertexElement && NoVertexElement(ks, j + 1, h.bodyStart)
         ==> ks[j].countField == Some(h.vertexCount))
    decreases |ks| - i
  {
    ScanStopsAtFirstEnd(ks, i, count, color);
    var h := ScanHeaderFrom(ks, i, count, color).value;
    var count' := NextCount(ks, i, count);
    if !ks[i].endsHeader {
      var color' := color || ks[i].mentionsColor;
      assert ScanHeaderFrom(ks, i, count, color) == ScanHeaderFrom(ks, i + 1, count', color');
      ScanCount(ks, i + 1, count', color');
      if ks[i].vertexElement && NoVertexElement(ks, i + 1, h.bodyStart) {
        assert h.vertexCount == count';
      }
      if NoVertexElement(ks, i, h.bodyStart) {
        assert NoVertexElement(ks, i + 1, h.bodyStart);
      }
    }
  }

  lemma {:induction false} ScanErrors(ks: seq<HeaderLine>, i: nat, count: int, color: bool)
    requires i <= |ks|
    requires ScanHeaderFrom(ks, i, count, color).Err?
    ensures var e := ScanHeaderFrom(ks, i, count, color).error;
      (e == MissingEndHeader ==> forall j :: i <= j < |ks| ==> !ks[j].endsHeader) &&
      (e.BadVertexCount? ==>
         i <= e.line < |ks| && ks[e.line].vertexElement && ks[e.line].countField.None?
         && forall j :: i <= j < e.line ==> !ks[j].endsHeader) &&
      !e.MalformedVertex?
    decreases |ks| - i
  {
    if i < |ks| && !(ks[i].vertexElement && ks[i].countField.None?) {
      ScanErrors(ks, i + 1, NextCount(ks, i, count), color || ks[i].mentionsColor);
    }
  }

  lemma {:induction false} ScanSucceeds(ks: seq<HeaderLine>, i: nat, count: int, color: bool, e: nat)
    requires i <= e < |ks| && ks[e].endsHeader
    requires forall j :: i <= j <= e && ks[j].vertexElement ==> ks[j].countField.Some?
    ensures ScanHeaderFrom(ks, i, count, color).Ok?
    decreases e - i
  {
    if !ks[i].endsHeader {
      ScanSucceeds(ks, i + 1, NextCount(ks, i, count), color || ks[i].mentionsColor, e);
    }
  }

  /**
   * A successful header ends at the FIRST line that trims to `end_header`, and the body
   * starts on the line after it.
   */
  lemma HeaderStopsAtFirstEnd(lines: seq<string>)
    requires HeaderOf(lines).Ok?
    ensures var h := HeaderOf(lines).value;
      0 < h.bodyStart <= |lines| && IsEndHeader(lines[h.bodyStart - 1])
      && forall j :: 0 <= j < h.bodyStart - 1 ==> !IsEndHeader(lines[j])
  {
    ScanStopsAtFirstEnd(Classified(lines), 0, 0, false);
  }

  /** `has_color` is set exactly when some header line, `end_header` included, contains `red`. */
  lemma HeaderColor(lines: seq<string>)
    requires HeaderOf(lines).Ok?
    ensures var h := HeaderOf(lines).value;
      h.bodyStart <= |lines| &&
      (h.hasColor <==> exists j :: 0 <= j < h.bodyStart && MentionsColor(lines[j]))
  {
    var ks := Classified(lines);
    ScanColor(ks, 0, 0, false);
    var h := HeaderOf(lines).value;
    if h.hasColor {
      var j :| 0 <= j < h.bodyStart && ks[j].mentionsColor;
      assert MentionsColor(lines[j]);
    }
  }

  /**
   * `vertex_count` comes from the LAST `element vertex` line of the header, and stays 0
   * when there is none.
   */
  lemma HeaderVertexCount(lines: seq<string>)
    requires HeaderOf(lines).Ok?
    ensures var h := HeaderOf(lines).value;
      h.bodyStart <= |lines| &&
      ((forall j :: 0 <= j < h.bodyStart ==> !IsVertexElement(lines[j])) ==> h.vertexCount == 0) &&
      (forall j :: 0 <= j < h.bodyStart && IsVertexElement(lines[j])
         && (forall j' :: j < j' < h.bodyStart ==> !IsVertexElement(lines[j']))
         ==> VertexCountField(lines[j]) == Some(h.vertexCount))
  {
    var ks := Classified(lines);
    ScanCount(ks, 0, 0, false);
    var h := HeaderOf(lines).value;
    forall j | 0 <= j < h.bodyStart && IsVertexElement(lines[j])
      && (forall j' :: j < j' < h.bodyStart ==> !IsVertexElement(lines[j']))
      ensures VertexCountField(lines[j]) == Some(h.vertexCount)
    {
      assert NoVertexElement(ks, j + 1, h.bodyStart);
    }
    if forall j :: 0 <= j < h.bodyStart ==> !IsVertexElement(lines[j]) {
      assert NoVertexElement(ks, 0, h.bodyStart);
    }
  }

  /**
   * The header fails exactly in the two ways the source cannot get past: no line trims to
   * `end_header` (the source loops forever), or an `element vertex` line before the first
   * `end_header` has no `i32` third field (the source panics).
   */
  lemma HeaderFailsIff(lines: seq<string>)
    ensures HeaderOf(lines).Err? <==>
      forall e :: 0 <= e < |lines| && IsEndHeader(lines[e]) ==>
        exists j :: 0 <= j <= e && IsVertexElement(lines[j]) && VertexCountField(lines[j]).None?
  {
    var ks := Classified(lines);
    if HeaderOf(lines).Err? {
      forall e | 0 <= e < |lines| && IsEndHeader(lines[e])
        ensures exists j :: 0 <= j <= e && IsVertexElement(lines[j]) && VertexCountField(lines[j]).None?
      {
        if forall j :: 0 <= j <= e && ks[j].vertexElement ==> ks[j].countField.Some? {
          ScanSucceeds(ks, 0, 0, false, e);
        }
      }
    } else {
      ScanStopsAtFirstEnd(ks, 0, 0, false);
      ScanCountFields(ks, 0, 0, false);
      var e := HeaderOf(lines).value.bodyStart - 1;
      assert ks[e] == Classify(lines[e]);
      forall j | 0 <= j <= e && IsVertexElement(lines[j])
        ensures VertexCountField(lines[j]).Some?
      {
        assert ks[j] == Classify(lines[j]);
      }
    }
  }

  /** What each header error reports: no `end_header` at all, or the first bad `element vertex` line. */
  lemma HeaderErrorCause(lines: seq<string>)
    requires HeaderOf(lines).Err?
    ensures var e := HeaderOf(lines).error;
      (e == MissingEndHeader ==> forall j :: 0 <= j < |lines| ==> !IsEndHeader(lines[j])) &&
      (e.BadVertexCount? ==>
         e.line < |lines| && IsVertexElement(lines[e.line]) && VertexCountField(lines[e.line]).None?
         && forall j :: 0 <= j < e.line ==> !IsEndHeader(lines[j])) &&
      !e.MalformedVertex?
  {
    ScanErrors(Classified(lines), 0, 0, false);
  }

  // ---------------------------------------------------------------------------------
  // The body, for any line reader

  /** One more body line: its vertex is appended, or the body fails on it. */
  lemma BodyStep(lines: seq<string>, start: nat, v: nat, read: LineReader)
    requires BodyOf(lines, start, v, read).Ok?
    ensures var b := BodyOf(lines, start, v, read).value;
      var x := read(BodyLine(lines, start, v));
      BodyOf(lines, start, v + 1, read) ==
        if x.None? then Err(MalformedVertex(v)) else Ok(Body(b.points + [x.value.0], b.colors + x.value.1))
  {
  }

  /** Once a body line fails, reading more lines keeps that first failure. */
  lemma {:induction false} BodyErrorPersists(lines: seq<string>, start: nat, i: nat, n: nat, read: LineReader)
    requires i <= n
    requires BodyOf(lines, start, i, read).Err?
    ensures BodyOf(lines, start, n, read) == BodyOf(lines, start, i, read)
    decreases n - i
  {
    if i < n {
      BodyErrorPersists(lines, start, i, n - 1, read);
    }
  }

  /** Reading the body succeeds exactly when every one of its `n` lines reads. */
  lemma {:induction false} BodyOkIff(lines: seq<string>, start: nat, n: nat, read: LineReader)
    ensures BodyOf(lines, start, n, read).Ok? <==>
      forall i :: 0 <= i < n ==> read(BodyLine(lines, start, i)).Some?
  {
    if n > 0 {
      BodyOkIff(lines, start, n - 1, read);
    }
  }

  /** A failure names the first body line that does not read. */
  lemma {:induction false} BodyErrorIsFirstBadLine(lines: seq<string>, start: nat, n: nat, read: LineReader)
    requires BodyOf(lines, start, n, read).Err?
    ensures var e := BodyOf(lines, start, n, read).error;
      e.MalformedVertex? && e.vertex < n
      && read(BodyLine(lines, start, e.vertex)).None?
      && forall i :: 0 <= i < e.vertex ==> read(BodyLine(lines, start, i)).Some?
  {
    if BodyOf(lines, start, n - 1, read).Err? {
      BodyErrorIsFirstBadLine(lines, start, n - 1, read);
    } else {
      BodyOkIff(lines, start, n - 1, read);
    }
  }

  /** On success there is one point per body line: point `i` is what line `i` reads as. */
  lemma {:induction false} BodyPointsRead(lines: seq<string>, start: nat, n: nat, read: LineReader)
    requires BodyOf(lines, start, n, read).Ok?
    ensures var b := BodyOf(lines, start, n, read).value;
      |b.points| == n
      && forall i :: 0 <= i < n ==>
           read(BodyLine(lines, start, i)).Some? && read(BodyLine(lines, start, i)).value.0 == b.points[i]
  {
    if n > 0 {
      BodyPointsRead(lines, start, n - 1, read);
    }
  }

  /** How many of the `n` body lines from `start` satisfy `p`. */
  function CountLines(lines: seq<string>, start: nat, n: nat, p: string -> bool): nat {
    if n == 0 then 0
    else CountLines(lines, start, n - 1, p) + (if p(BodyLine(lines, start, n - 1)) then 1 else 0)
  }

  lemma {:induction false} CountLinesBound(lines: seq<string>, start: nat, n: nat, p: string -> bool)
    ensures CountLines(lines, start, n, p) <= n
    ensures CountLines(lines, start, n, p) == 0 <==> forall i :: 0 <= i < n ==> !p(BodyLine(lines, start, i))
    ensures CountLines(lines, start, n, p) == n <==> forall i :: 0 <= i < n ==> p(BodyLine(lines, start, i))
  {
    if n > 0 {
      CountLinesBound(lines, start, n - 1, p);
    }
  }

  /**
   * When each line reads with one color where `p` holds and none where it fails, there is
   * one color per line satisfying `p`; when `p` holds everywhere, color `i` is the one line
   * `i` reads.
   */
  lemma {:induction false} BodyColorsRead(lines: seq<string>, start: nat, n: nat, read: LineReader, p: string -> bool)
    requires BodyOf(lines, start, n, read).Ok?
    requires forall i :: 0 <= i < n && read(BodyLine(lines, start, i)).Some? ==>
      |read(BodyLine(lines, start, i)).value.1| == (if p(BodyLine(lines, start, i)) then 1 else 0)
    ensures var b := BodyOf(lines, start, n, read).value;
      |b.colors| == CountLines(lines, start, n, p)
      && ((forall i :: 0 <= i < n ==> p(BodyLine(lines, start, i))) ==>
            |b.colors| == n
            && forall i :: 0 <= i < n ==>
                 read(BodyLine(lines, start, i)).Some? && read(BodyLine(lines, start, i)).value.1 == [b.colors[i]])
  {
    if n > 0 {
      BodyColorsRead(lines, start, n - 1, read, p);
      BodyPointsRead(lines, start, n - 1, read);
      CountLinesBound(lines, start, n - 1, p);
    }
  }

  /** Which of the `n` body lines from `start` satisfy `p`. */
  function LineMask(lines: seq<string>, start: nat, n: nat, p: string -> bool): (mask: seq<bool>)
    ensures |mask| == n
  {
    seq(n, i requires 0 <= i < n => p(BodyLine(lines, start, i)))
  }

  /**
   * When each line reads with one color where `p` holds and none where it fails, color `j`
   * is the one read from the `j`-th line satisfying `p`: the colors come from those lines,
   * in order.
   */
  lemma {:induction false} BodyColorsInOrder(lines: seq<string>, start: nat, n: nat, read: LineReader, p: string -> bool)
    requires BodyOf(lines, start, n, read).Ok?
    requires forall i :: 0 <= i < n && read(BodyLine(lines, start, i)).Some? ==>
      |read(BodyLine(lines, start, i)).value.1| == (if p(BodyLine(lines, start, i)) then 1 else 0)
    ensures var b, ks := BodyOf(lines, start, n, read).value, Kept(LineMask(lines, start, n, p));
      |b.colors| == |ks|
      && forall j :: 0 <= j < |ks| ==>
           ks[j] < n && read(BodyLine(lines, start, ks[j])).Some?
           && read(BodyLine(lines, start, ks[j])).value.1 == [b.colors[j]]
  {
    if n > 0 {
      var m := n - 1;
      BodyColorsInOrder(lines, start, m, read, p);
      BodyPointsRead(lines, start, m, read);
      KeptAreTrue(LineMask(lines, start, m, p));
      var mask := LineMask(lines, start, n, p);
      assert mask[..m] == LineMask(lines, start, m, p);
      var line := BodyLine(lines, start, m);
      assert read(line).Some?;
      var b := BodyOf(lines, start, m, read).value;
      assert BodyOf(lines, start, n, read).value.colors == b.colors + read(line).value.1;
      if p(line) {
        assert read(line).value.1 == [read(line).value.1[0]];
      }
    }
  }

  // ---------------------------------------------------------------------------------
  // The body, read with `VertexOf`

  /**
   * One body line reads exactly when its first three fields are a position and, if it
   * carries a color, fields four to six are one; it then gives that position and that color.
   */
  lemma VertexOfIff(line: string, hasColor: bool, parseCoord: string -> Option<real>)
    ensures VertexOf(line, hasColor, parseCoord).Some? <==>
      PointOnLine(line, parseCoord).Some? && (CarriesColor(line, hasColor) ==> ColorOnLine(line).Some?)
    ensures VertexOf(line, hasColor, parseCoord).Some? ==>
      VertexOf(line, hasColor, parseCoord).value.0 == PointOnLine(line, parseCoord).value
      && VertexOf(line, hasColor, parseCoord).value.1 ==
         (if CarriesColor(line, hasColor) then [ColorOnLine(line).value] else [])
  {
  }

  /** The body lines that carry a color. */
  function ColoredLines(lines: seq<string>, start: nat, n: nat, hasColor: bool): nat {
    CountLines(lines, start, n, line => CarriesColor(line, hasColor))
  }

  /**
   * On success there is one point per body line, and point `i` is the first three fields
   * of body line `i`; there is one color per line that carries one, so at most as many
   * colors as points and none when the header mentions no color; and when every line
   * carries a color, color `i` is fields four to six of body line `i`.
   */
  lemma BodyContents(lines: seq<string>, start: nat, n: nat, hasColor: bool, parseCoord: string -> Option<real>)
    requires BodyOf(lines, start, n, Reader(hasColor, parseCoord)).Ok?
    ensures var b := BodyOf(lines, start, n, Reader(hasColor, parseCoord)).value;
      |b.points| == n
      && (forall i :: 0 <= i < n ==> PointOnLine(BodyLine(lines, start, i), parseCoord) == Some(b.points[i]))
      && |b.colors| == ColoredLines(lines, start, n, hasColor) <= n
      && (!hasColor ==> b.colors == [])
      && ((forall i :: 0 <= i < n ==> CarriesColor(BodyLine(lines, start, i), hasColor)) ==>
            |b.colors| == n
            && forall i :: 0 <= i < n ==> ColorOnLine(BodyLine(lines, start, i)) == Some(b.colors[i]))
    ensures var b, ks := BodyOf(lines, start, n, Reader(hasColor, parseCoord)).value,
                         Kept(LineMask(lines, start, n, line => CarriesColor(line, hasColor)));
      |b.colors| == |ks|
      && forall j :: 0 <= j < |ks| ==>
           ks[j] < n && CarriesColor(BodyLine(lines, start, ks[j]), hasColor)
           && ColorOnLine(BodyLine(lines, start, ks[j])) == Some(b.colors[j])
  {
    var read := Reader(hasColor, parseCoord);
    var p := line => CarriesColor(line, hasColor);
    forall i | 0 <= i < n
      ensures var line := BodyLine(lines, start, i);
        read(line).Some? ==>
          (|read(line).value.1| == (if p(line) then 1 else 0)
           && PointOnLine(line, parseCoord) == Some(read(line).value.0)
           && (p(line) ==> ColorOnLine(line).Some? && read(line).value.1 == [ColorOnLine(line).value]))
    {
      VertexOfIff(BodyLine(lines, start, i), hasColor, parseCoord);
    }
    BodyPointsRead(lines, start, n, read);
    BodyColorsRead(lines, start, n, read, p);
    CountLinesBound(lines, start, n, p);
    ColorsFromCarryingLines(lines, start, n, hasColor, parseCoord);
  }

  /** Color `j` is fields four to six of the `j`-th body line that carries a color. */
  lemma ColorsFromCarryingLines(lines: seq<string>, start: nat, n: nat, hasColor: bool, parseCoord: string -> Option<real>)
    requires BodyOf(lines, start, n, Reader(hasColor, parseCoord)).Ok?
    ensures var b, ks := BodyOf(lines, start, n, Reader(hasColor, parseCoord)).value,
                         Kept(LineMask(lines, start, n, line => CarriesColor(line, hasColor)));
      |b.colors| == |ks|
      && forall j :: 0 <= j < |ks| ==>
           ks[j] < n && CarriesColor(BodyLine(lines, start, ks[j]), hasColor)
           && ColorOnLine(BodyLine(lines, start, ks[j])) == Some(b.colors[j])
  {
    var read := Reader(hasColor, parseCoord);
    var p := line => CarriesColor(line, hasColor);
    forall i | 0 <= i < n
      ensures var line := BodyLine(lines, start, i);
        read(line).Some? ==>
          (|read(line).value.1| == (if p(line) then 1 else 0)
           && (p(line) ==> ColorOnLine(line).Some? && read(line).value.1 == [ColorOnLine(line).value]))
    {
      VertexOfIff(BodyLine(lines, start, i), hasColor, parseCoord);
    }
    BodyColorsInOrder(lines, start, n, read, p);
    KeptAreTrue(LineMask(lines, start, n, p));
  }
}

=== FILE: ply_layout.dfy ===
/**
 * The layout of an ASCII PLY file with one vertex element, as a writer lays it out: the
 * magic line, the format line, `element vertex <N>`, three float properties (and three
 * `uchar` color properties when the cloud has colors), `end_header`, then one line per
 * vertex with its fields separated by single spaces. Reading such a file gives the cloud
 * back.
 */
module PlyLayout {
  import opened Outcomes
  import opened Text
  import opened Points
  import opened Ply

  const ColorProperties: seq<string> := ["property uchar red", "property uchar green", "property uchar blue"]

  /** The header lines for `count` vertices, with or without colors. */
  function HeaderLines(count: nat, colored: bool): seq<string> {
    ["ply", "format ascii 1.0", "element vertex " + ShowNat(count),
     "property float x", "property float y", "property float z"]
    + (if colored then ColorProperties else [])
    + ["end_header"]
  }

  /** The fields of one vertex line: three coordinates, then the color channels if any. */
  function VertexFields(p: Vec3, color: seq<Rgb>, showCoord: real -> string): seq<string> {
    [showCoord(p.x), showCoord(p.y), showCoord(p.z)]
    + (if color == [] then [] else [ShowNat(color[0].r), ShowNat(color[0].g), ShowNat(color[0].b)])
  }

  /** Color `i`, as a sequence of at most one. */
  function ColorAt(colors: seq<Rgb>, i: nat): seq<Rgb> {
    if i < |colors| then [colors[i]] else []
  }

  function VertexLines(points: seq<Vec3>, colors: seq<Rgb>, showCoord: real -> string): (ls: seq<string>)
    ensures |ls| == |points|
  {
    seq(|points|, i requires 0 <= i < |points| => JoinWords(VertexFields(points[i], ColorAt(colors, i), showCoord)))
  }

  /** The whole file for a cloud whose colors are absent or one per point. */
  function PlyText(points: seq<Vec3>, colors: seq<Rgb>, showCoord: real -> string): seq<string> {
    HeaderLines(|points|, colors != []) + VertexLines(points, colors, showCoord)
  }

  /** The writer prints coordinate `x` as one word that the coordinate parser reads back as `x`. */
  predicate ShowsBack(showCoord: real -> string, parseCoord: string -> Option<real>, x: real) {
    IsWord(showCoord(x)) && parseCoord(showCoord(x)) == Some(x)
  }

  /** Each coordinate of `p` prints and reads back. */
  predicate PointShowsBack(showCoord: real -> string, parseCoord: string -> Option<real>, p: Vec3) {
    ShowsBack(showCoord, parseCoord, p.x) && ShowsBack(showCoord, parseCoord, p.y) && ShowsBack(showCoord, parseCoord, p.z)
  }

  /** Every coordinate of the cloud prints and reads back. */
  predicate CloudShowsBack(showCoord: real -> string, parseCoord: string -> Option<real>, points: seq<Vec3>) {
    forall j :: 0 <= j < |points| ==> PointShowsBack(showCoord, parseCoord, points[j])
  }

  /**
   * The premise can be met: a writer that prints only `0` and a parser that reads only `0`
   * round-trip the origin.
   */
  lemma OriginShowsBack()
    ensures CloudShowsBack(x => "0", s => if s == "0" then Some(0.0) else None, [Origin])
  {
    DigitsAreWord("0");
  }

  // ---------------------------------------------------------------------------------
  // What the header scan sees in each header line

  /** A line the header scan passes over without effect. */
  predicate Plain(k: HeaderLine) {
    !k.vertexElement && !k.mentionsColor && !k.endsHeader
  }

  /** A line that holds no `d` cannot contain `red`. */
  lemma NoRedWithoutD(s: string)
    requires forall i :: 0 <= i < |s| ==> s[i] != 'd'
    ensures !MentionsColor(s)
  {
    forall i | 0 <= i <= |s| ensures !StartsWith(s[i..], "red") {
      if i + 3 <= |s| {
        assert s[i..][2] == s[i + 2];
      }
    }
  }

  /** A line that starts and ends with a non-blank character trims to itself. */
  lemma TrimNoPadding(s: string)
    requires s != [] && !IsWhitespace(s[0]) && !IsWhitespace(s[|s| - 1])
    ensures Trim(s) == s
  {
  }

  lemma PlainLine(s: string)
    requires 0 < |s| && s[0] != 'e' && !IsWhitespace(s[0]) && !IsWhitespace(s[|s| - 1])
    requires forall i :: 0 <= i < |s| ==> s[i] != 'd'
    requires s != "end_header"
    ensures Plain(Classify(s))
  {
    NoRedWithoutD(s);
    TrimNoPadding(s);
    assert !StartsWith(s, "element vertex") by {
      if |s| >= 14 {
        assert s[..14][0] == s[0];
      }
    }
  }

  lemma DigitsAreWord(s: string)
    requires s != [] && AllDigits(s)
    ensures IsWord(s)
  {
    forall i | 0 <= i < |s| ensures !IsWhitespace(s[i]) {
      assert IsDigit(s[i]);
    }
  }

  /** The `element vertex` line announces `count` vertices and nothing else. */
  lemma CountLine(count: nat)
    requires count <= I32Max
    ensures var k := Classify("element vertex " + ShowNat(count));
      k.vertexElement && k.countField == Some(count) && !k.mentionsColor && !k.endsHeader
  {
    var d := ShowNat(count);
    var s := "element vertex " + d;
    DigitsAreWord(d);
    assert JoinWords(["element", "vertex", d]) == s by {
      assert JoinWords(["vertex", d]) == "vertex" + " " + d;
      assert ["element", "vertex", d][1..] == ["vertex", d];
      assert ["vertex", d][1..] == [d];
    }
    TokensOfJoin(["element", "vertex", d]);
    ParseI32OfShow(count);
    assert s[..14] == "element vertex";
    forall i | 0 <= i < |s| ensures s[i] != 'd' {
      if i >= 15 {
        assert s[i] == d[i - 15];
        assert IsDigit(d[i - 15]);
      }
    }
    NoRedWithoutD(s);
    TrimNoPadding(s);
    assert s[|s| - 1] == d[|d| - 1] && IsDigit(d[|d| - 1]);
  }

  lemma RedLine()
    ensures var k := Classify("property uchar red");
      !k.vertexElement && k.mentionsColor && !k.endsHeader
  {
    var s := "property uchar red";
    assert StartsWith(s[15..], "red");
    TrimNoPadding(s);
    assert !StartsWith(s, "element vertex") by {
      assert s[..14][0] == 'p';
    }
  }

  lemma EndLine()
    ensures var k := Classify("end_header");
      !k.vertexElement && k.endsHeader
  {
    TrimNoPadding("end_header");
  }

  /** `end_header` does not contain `red`. */
  lemma EndLineHasNoRed()
    ensures !MentionsColor("end_header")
  {
    var s := "end_header";
    forall i | 0 <= i <= |s| ensures !StartsWith(s[i..], "red") {
      if i + 3 <= |s| {
        assert s[i..][0] == s[i] && s[i..][1] == s[i + 1] && s[i..][2] == s[i + 2];
      }
    }
  }

  lemma MagicIsPlain()
    ensures Plain(Classify("ply"))
  {
    PlainLine("ply");
  }

  lemma FormatIsPlain()
    ensures Plain(Classify("format ascii 1.0"))
  {
    PlainLine("format ascii 1.0");
  }

  lemma GreenIsPlain()
    ensures Plain(Classify("property uchar green"))
  {
    PlainLine("property uchar green");
  }

  lemma BlueIsPlain()
    ensures Plain(Classify("property uchar blue"))
  {
    PlainLine("property uchar blue");
  }

  /** Passing over a plain line changes nothing. */
  lemma ScanPlain(ks: seq<HeaderLine>, i: nat, count: int, color: bool)
    requires i < |ks| && Plain(ks[i])
    ensures ScanHeaderFrom(ks, i, count, color) == ScanHeaderFrom(ks, i + 1, count, color)
  {
  }

  /** The header scan over the classified header lines of a laid-out file. */
  lemma ScanLayout(ks: seq<HeaderLine>, count: int, colored: bool)
    requires |ks| >= 7 + (if colored then 3 else 0)
    requires Plain(ks[0]) && Plain(ks[1])
    requires ks[2].vertexElement && ks[2].countField == Some(count) && !ks[2].mentionsColor && !ks[2].endsHeader
    requires Plain(ks[3]) && Plain(ks[4]) && Plain(ks[5])
    requires colored ==> !ks[6].vertexElement && ks[6].mentionsColor && !ks[6].endsHeader
    requires colored ==> Plain(ks[7]) && Plain(ks[8])
    requires var e := if colored then 9 else 6;
      !ks[e].vertexElement && ks[e].endsHeader && (colored || !ks[e].mentionsColor)
    ensures ScanHeaderFrom(ks, 0, 0, false) == Ok(Header(count, colored, if colored then 10 else 7))
  {
    ScanPlain(ks, 0, 0, false);
    ScanPlain(ks, 1, 0, false);
    ScanPlain(ks, 3, count, false);
    ScanPlain(ks, 4, count, false);
    ScanPlain(ks, 5, count, false);
    if colored {
      assert ScanHeaderFrom(ks, 6, count, false) == ScanHeaderFrom(ks, 7, count, true);
      ScanPlain(ks, 7, count, true);
      ScanPlain(ks, 8, count, true);
    }
  }

  /** The classification of the header lines does not depend on what follows them. */
  lemma ClassifiedPrefix(hs: seq<string>, body: seq<string>, j: nat)
    requires j < |hs|
    ensures Classified(hs + body)[j] == Classify(hs[j])
  {
    assert (hs + body)[j] == hs[j];
  }

  /** The header lines of a laid-out file, classified, whatever body follows them. */
  function HeaderKinds(count: nat, colored: bool, body: seq<string>): seq<HeaderLine> {
    Classified(HeaderLines(count, colored) + body)
  }

  /** Header line `j` is classified on its own text. */
  lemma HeaderKindIs(count: nat, colored: bool, body: seq<string>, j: nat, s: string)
    requires j < |HeaderLines(count, colored)| && HeaderLines(count, colored)[j] == s
    ensures j < |HeaderKinds(count, colored, body)| && HeaderKinds(count, colored, body)[j] == Classify(s)
  {
    ClassifiedPrefix(HeaderLines(count, colored), body, j);
  }

  lemma MagicLineKind(count: nat, colored: bool, body: seq<string>)
    ensures |HeaderKinds(count, colored, body)| > 0 && Plain(HeaderKinds(count, colored, body)[0])
  {
    HeaderKindIs(count, colored, body, 0, "ply");
    MagicIsPlain();
  }

  lemma FormatLineKind(count: nat, colored: bool, body: seq<string>)
    ensures |HeaderKinds(count, colored, body)| > 1 && Plain(HeaderKinds(count, colored, body)[1])
  {
    HeaderKindIs(count, colored, body, 1, "format ascii 1.0");
    FormatIsPlain();
  }

  lemma CountLineKind(count: nat, colored: bool, body: seq<string>)
    requires count <= I32Max
    ensures var ks := HeaderKinds(count, colored, body);
      |ks| > 2 && ks[2].vertexElement && ks[2].countField == Some(count) && !ks[2].mentionsColor && !ks[2].endsHeader
  {
    HeaderKindIs(count, colored, body, 2, "element vertex " + ShowNat(count));
    CountLine(count);
  }

  /** A coordinate property line, `j` from 3 to 5. */
  lemma CoordinateLineKind(count: nat, colored: bool, body: seq<string>, j: nat)
    requires 3 <= j <= 5
    ensures |HeaderKinds(count, colored, body)| > j && Plain(HeaderKinds(count, colored, body)[j])
  {
    var s := HeaderLines(count, colored)[j];
    assert s == "property float " + ["xyz"[j - 3]];
    PlainLine(s);
    HeaderKindIs(count, colored, body, j, s);
  }

  lemma RedLineKind(count: nat, body: seq<string>)
    ensures var ks := HeaderKinds(count, true, body);
      |ks| > 6 && !ks[6].vertexElement && ks[6].mentionsColor && !ks[6].endsHeader
  {
    HeaderKindIs(count, true, body, 6, "property uchar red");
    RedLine();
  }

  lemma GreenLineKind(count: nat, body: seq<string>)
    ensures |HeaderKinds(count, true, body)| > 7 && Plain(HeaderKinds(count, true, body)[7])
  {
    HeaderKindIs(count, true, body, 7, "property uchar green");
    GreenIsPlain();
  }

  lemma BlueLineKind(count: nat, body: seq<string>)
    ensures |HeaderKinds(count, true, body)| > 8 && Plain(HeaderKinds(count, true, body)[8])
  {
    HeaderKindIs(count, true, body, 8, "property uchar blue");
    BlueIsPlain();
  }

  /** `end_header` closes the header: line 9 with colors, line 6 without. */
  lemma EndLineKind(count: nat, colored: bool, body: seq<string>)
    ensures var ks := HeaderKinds(count, colored, body);
      var e := if colored then 9 else 6;
      |ks| > e && !ks[e].vertexElement && ks[e].endsHeader && !ks[e].mentionsColor
  {
    HeaderKindIs(count, colored, body, if colored then 9 else 6, "end_header");
    EndLine();
    EndLineHasNoRed();
  }

  /** The header of a laid-out file: `count` vertices, colors iff asked, the body right after it. */
  lemma HeaderOfLayout(count: nat, colored: bool, body: seq<string>)
    requires count <= I32Max
    ensures var hs := HeaderLines(count, colored);
      HeaderOf(hs + body) == Ok(Header(count, colored, |hs|))
  {
    MagicLineKind(count, colored, body);
    FormatLineKind(count, colored, body);
    CountLineKind(count, colored, body);
    CoordinateLineKind(count, colored, body, 3);
    CoordinateLineKind(count, colored, body, 4);
    CoordinateLineKind(count, colored, body, 5);
    EndLineKind(count, colored, body);
    if colored {
      RedLineKind(count, body);
      GreenLineKind(count, body);
      BlueLineKind(count, body);
    }
    ScanLayout(HeaderKinds(count, colored, body), count, colored);
  }

  // ---------------------------------------------------------------------------------
  // The body

  lemma FieldsAreWords(p: Vec3, color: seq<Rgb>, showCoord: real -> string, parseCoord: string -> Option<real>)
    requires PointShowsBack(showCoord, parseCoord, p)
    ensures var fs := VertexFields(p, color, showCoord);
      forall j :: 0 <= j < |fs| ==> IsWord(fs[j])
  {
    var fs := VertexFields(p, color, showCoord);
    assert IsWord(showCoord(p.x)) && IsWord(showCoord(p.y)) && IsWord(showCoord(p.z));
    if color != [] {
      var c := color[0];
      DigitsAreWord(ShowNat(c.r));
      DigitsAreWord(ShowNat(c.g));
      DigitsAreWord(ShowNat(c.b));
    }
  }

  /** One laid-out vertex line reads back as its point and its color. */
  lemma VertexOfLayout(p: Vec3, color: seq<Rgb>, colored: bool, showCoord: real -> string, parseCoord: string -> Option<real>)
    requires PointShowsBack(showCoord, parseCoord, p)
    requires |color| <= 1 && (color != [] <==> colored)
    ensures VertexOf(JoinWords(VertexFields(p, color, showCoord)), colored, parseCoord) == Some((p, color))
  {
    var fs := VertexFields(p, color, showCoord);
    FieldsAreWords(p, color, showCoord, parseCoord);
    TokensOfJoin(fs);
    assert parseCoord(showCoord(p.x)) == Some(p.x);
    assert parseCoord(showCoord(p.y)) == Some(p.y);
    assert parseCoord(showCoord(p.z)) == Some(p.z);
    if color != [] {
      var c := color[0];
      ParseU8OfShow(c.r);
      ParseU8OfShow(c.g);
      ParseU8OfShow(c.b);
      assert color == [c];
    }
  }

  /** Body line `i` of a laid-out file is the line laid out for vertex `i`. */
  lemma LayoutLine(hs: seq<string>, body: seq<string>, i: nat)
    requires i < |body|
    ensures BodyLine(hs + body, |hs|, i) == body[i]
  {
  }

  /** Laid-out body line `i` reads back as vertex `i`: its point, and its color when there are colors. */
  lemma LaidOutLineReads(points: seq<Vec3>, colors: seq<Rgb>, i: nat, showCoord: real -> string, parseCoord: string -> Option<real>)
    requires CloudShowsBack(showCoord, parseCoord, points)
    requires colors == [] || |colors| == |points|
    requires i < |points|
    ensures Reader(colors != [], parseCoord)(BodyLine(PlyText(points, colors, showCoord), |HeaderLines(|points|, colors != [])|, i))
        == Some((points[i], ColorAt(colors, i)))
  {
    var hs := HeaderLines(|points|, colors != []);
    var body := VertexLines(points, colors, showCoord);
    LayoutLine(hs, body, i);
    VertexOfLayout(points[i], ColorAt(colors, i), colors != [], showCoord, parseCoord);
  }

  /** Once the header is read, the file parses as its body. */
  lemma ParseAfterHeader(lines: seq<string>, parseCoord: string -> Option<real>, h: Header)
    requires HeaderOf(lines) == Ok(h)
    ensures ParsePly(lines, parseCoord) == BodyOf(lines, h.bodyStart, VertexTotal(h.vertexCount), Reader(h.hasColor, parseCoord))
  {
  }

  /** The first `n` body lines, each of which reads as its vertex, give the first `n` points and colors. */
  lemma {:induction false} BodyOfLayout(lines: seq<string>, start: nat, points: seq<Vec3>, colors: seq<Rgb>, n: nat,
                                        read: LineReader)
    requires colors == [] || |colors| == |points|
    requires n <= |points|
    requires forall i :: 0 <= i < |points| ==> read(BodyLine(lines, start, i)) == Some((points[i], ColorAt(colors, i)))
    ensures BodyOf(lines, start, n, read) == Ok(Body(points[..n], if colors == [] then [] else colors[..n]))
  {
    if n > 0 {
      var i := n - 1;
      BodyOfLayout(lines, start, points, colors, i, read);
      assert read(BodyLine(lines, start, i)) == Some((points[i], ColorAt(colors, i)));
      assert points[..n] == points[..i] + [points[i]];
      if colors != [] {
        assert ColorAt(colors, i) == [colors[i]];
        assert colors[..n] == colors[..i] + [colors[i]];
      } else {
        assert ColorAt(colors, i) == [];
        assert [] + ColorAt(colors, i) == [];
      }
    }
  }

  /** Every laid-out body line reads back as its vertex. */
  lemma LaidOutBodyReads(points: seq<Vec3>, colors: seq<Rgb>, showCoord: real -> string, parseCoord: string -> Option<real>)
    requires CloudShowsBack(showCoord, parseCoord, points)
    requires colors == [] || |colors| == |points|
    ensures forall i :: 0 <= i < |points| ==>
      Reader(colors != [], parseCoord)(BodyLine(PlyText(points, colors, showCoord), |HeaderLines(|points|, colors != [])|, i))
        == Some((points[i], ColorAt(colors, i)))
  {
    forall i | 0 <= i < |points|
      ensures Reader(colors != [], parseCoord)(BodyLine(PlyText(points, colors, showCoord), |HeaderLines(|points|, colors != [])|, i))
        == Some((points[i], ColorAt(colors, i)))
    {
      LaidOutLineReads(points, colors, i, showCoord, parseCoord);
    }
  }

  /** A file whose header announces the cloud and whose body lines read as its vertices parses as the cloud. */
  lemma ParseOfParts(lines: seq<string>, start: nat, points: seq<Vec3>, colors: seq<Rgb>, parseCoord: string -> Option<real>)
    requires HeaderOf(lines) == Ok(Header(|points|, colors != [], start))
    requires colors == [] || |colors| == |points|
    requires forall i :: 0 <= i < |points| ==>
      Reader(colors != [], parseCoord)(BodyLine(lines, start, i)) == Some((points[i], ColorAt(colors, i)))
    ensures ParsePly(lines, parseCoord) == Ok(Body(points, colors))
  {
    ParseAfterHeader(lines, parseCoord, Header(|points|, colors != [], start));
    BodyOfLayout(lines, start, points, colors, |points|, Reader(colors != [], parseCoord));
    assert points[..|points|] == points;
    assert colors[..|colors|] == colors;
  }

  /**
   * Reading a laid-out file gives back exactly the cloud that was laid out: its points
   * in order, and its colors when it has them.
   */
  lemma ParseOfLayout(points: seq<Vec3>, colors: seq<Rgb>, showCoord: real -> string, parseCoord: string -> Option<real>)
    requires CloudShowsBack(showCoord, parseCoord, points)
    requires colors == [] || |colors| == |points|
    requires |points| <= I32Max
    ensures ParsePly(PlyText(points, colors, showCoord), parseCoord) == Ok(Body(points, colors))
  {
    HeaderOfLayout(|points|, colors != [], VertexLines(points, colors, showCoord));
    LaidOutBodyReads(points, colors, showCoord, parseCoord);
    ParseOfParts(PlyText(points, colors, showCoord), |HeaderLines(|points|, colors != [])|, points, colors, parseCoord);
  }
}

=== FILE: point_cloud.dfy ===
/**
 * `PointCloud`: parallel vectors of positions, colors and normals, built by the PLY
 * reader and thinned in place by the voxel and outlier filters.
 *
 * Each method that changes a cloud is specified by a function on `Snapshot`, the value of
 * the three fields; the lemmas about those functions state what the filters keep.
 */
module PointClouds {
  import opened Outcomes
  import opened Text
  import opened Points
  import opened Ply
  import opened Indexing
  import opened Voxels
  import opened Outliers

  /** The contents of a cloud at one moment. */
  datatype Snapshot = Snapshot(points: seq<Vec3>, colors: seq<Rgb>, normals: seq<Vec3>)

  /** Colors either absent or one per point: the layout the filters expect. */
  predicate ColorsAligned(c: Snapshot) {
    c.colors == [] || |c.colors| == |c.points|
  }

  /** Re-indexing the colors with the kept indices reads past their end (`self.colors[i]` panics). */
  predicate DownsamplePanics(colors: seq<Rgb>, indices: seq<nat>) {
    colors != [] && exists j :: 0 <= j < |indices| && indices[j] >= |colors|
  }

  /**
   * The cloud after `voxel_downsample` has picked `indices`: the points at those indices,
   * the colors re-indexed the same way unless they are empty, and the normals as they
   * were. On a panic the points are already replaced and the colors are not.
   */
  function Downsampled(c: Snapshot, indices: seq<nat>): Snapshot
    requires forall j :: 0 <= j < |indices| ==> indices[j] < |c.points|
  {
    var colors := if c.colors == [] || DownsamplePanics(c.colors, indices) then c.colors
      else Gather(c.colors, indices);
    Snapshot(Gather(c.points, indices), colors, c.normals)
  }

  /** Points, and colors unless they are empty, filtered by one mask; normals untouched. */
  function Filtered(c: Snapshot, mask: seq<bool>): Snapshot {
    Snapshot(Select(c.points, mask), if c.colors == [] then [] else Select(c.colors, mask), c.normals)
  }

  /**
   * The cloud after `remove_outliers(k, std_ratio)`: unchanged when it holds fewer than
   * `k` points; otherwise filtered by the outlier mask.
   */
  function OutliersRemoved(c: Snapshot, k: nat, stdRatio: real, sqrt: real -> real): Snapshot {
    if |c.points| < k then c else Filtered(c, Mask(c.points, stdRatio, sqrt))
  }

  /**
   * Re-indexing panics exactly when the colors are present but stop before some point
   * that is the first of its voxel.
   */
  lemma DownsamplePanicsIff(points: seq<Vec3>, colors: seq<Rgb>, key: Vec3 -> VoxelKey, indices: seq<nat>)
    requires IsVoxelSelection(points, key, indices)
    ensures DownsamplePanics(colors, indices) <==>
      colors != [] && exists i :: |colors| <= i < |points| && IsFirstOfKey(points, key, i)
  {
    if DownsamplePanics(colors, indices) {
      var j :| 0 <= j < |indices| && indices[j] >= |colors|;
      assert IsFirstOfKey(points, key, indices[j]);
    }
    if colors != [] && exists i :: |colors| <= i < |points| && IsFirstOfKey(points, key, i) {
      var i :| |colors| <= i < |points| && IsFirstOfKey(points, key, i);
      assert i in indices;
      var j :| 0 <= j < |indices| && indices[j] == i;
    }
  }

  /**
   * With aligned colors the re-indexing never panics, the colors stay aligned, and every
   * kept point keeps its own color.
   */
  lemma DownsampleKeepsPairs(c: Snapshot, key: Vec3 -> VoxelKey, indices: seq<nat>)
    requires IsVoxelSelection(c.points, key, indices)
    requires ColorsAligned(c)
    ensures !DownsamplePanics(c.colors, indices)
    ensures var d := Downsampled(c, indices);
      ColorsAligned(d) && d.normals == c.normals
      && forall j :: 0 <= j < |d.points| ==>
           (indices[j] < |c.points| && d.points[j] == c.points[indices[j]]
            && (c.colors != [] ==> d.colors[j] == c.colors[indices[j]]))
  {
    DownsamplePanicsIff(c.points, c.colors, key, indices);
  }

  /**
   * Filtering leaves the points at the increasing positions where the mask is true, and
   * aligned colors are filtered at the very same positions.
   */
  lemma FilteredKeepsPairs(c: Snapshot, mask: seq<bool>)
    requires |mask| == |c.points|
    ensures var ks := Kept(mask);
      (forall a, b :: 0 <= a < b < |ks| ==> ks[a] < ks[b])
      && (forall i :: 0 <= i < |mask| ==> (i in ks <==> mask[i]))
    ensures var ks, d := Kept(mask), Filtered(c, mask);
      |d.points| == |ks| && d.normals == c.normals
      && forall j :: 0 <= j < |ks| ==> (ks[j] < |c.points| && d.points[j] == c.points[ks[j]])
    ensures ColorsAligned(c) ==> ColorsAligned(Filtered(c, mask))
    ensures var ks, d := Kept(mask), Filtered(c, mask);
      ColorsAligned(c) && c.colors != [] ==>
        |d.colors| == |ks| && forall j :: 0 <= j < |ks| ==> (ks[j] < |c.colors| && d.colors[j] == c.colors[ks[j]])
  {
    KeptExactly(mask);
    SelectIsGather(c.points, mask);
    if ColorsAligned(c) && c.colors != [] {
      SelectIsGather(c.colors, mask);
    }
  }

  /** The voxel step never adds points, and with aligned colors it never panics and keeps them aligned. */
  lemma DownsampleShrinks(c: Snapshot, key: Vec3 -> VoxelKey, indices: seq<nat>)
    requires IsVoxelSelection(c.points, key, indices)
    ensures |Downsampled(c, indices).points| <= |c.points|
    ensures Downsampled(c, indices).normals == c.normals
    ensures ColorsAligned(c) ==> !DownsamplePanics(c.colors, indices) && ColorsAligned(Downsampled(c, indices))
  {
    SelectionSize(c.points, key, indices);
    KeySetBound(c.points, key);
    if ColorsAligned(c) {
      DownsampleKeepsPairs(c, key, indices);
    }
  }

  /** The outlier step never adds points, and keeps aligned colors aligned. */
  lemma OutliersShrink(c: Snapshot, k: nat, stdRatio: real, sqrt: real -> real)
    ensures |OutliersRemoved(c, k, stdRatio, sqrt).points| <= |c.points|
    ensures OutliersRemoved(c, k, stdRatio, sqrt).normals == c.normals
    ensures ColorsAligned(c) ==> ColorsAligned(OutliersRemoved(c, k, stdRatio, sqrt))
  {
    if |c.points| >= k {
      var mask := Mask(c.points, stdRatio, sqrt);
      FilteredKeepsPairs(c, mask);
      KeptLength(mask);
    }
  }

  class PointCloud {
    var points: seq<Vec3>
    var colors: seq<Rgb>
    var normals: seq<Vec3>

    function State(): Snapshot
      reads this
    {
      Snapshot(points, colors, normals)
    }

    /** `PointCloud::new`: no points, colors or normals. */
    constructor ()
      ensures State() == Snapshot([], [], [])
    {
      points, colors, normals := [], [], [];
    }

    /**
     * `PointCloud::from_ply` on the lines of a file: the header loop, then one body line
     * per vertex. The result is the parsed file, or the error where the source would
     * panic or never stop.
     */
    static method FromPly(lines: seq<string>, parseCoord: string -> Option<real>) returns (r: Result<PointCloud, PlyError>)
      ensures ParsePly(lines, parseCoord).Err? ==> r.Err? && r.error == ParsePly(lines, parseCoord).error
      ensures ParsePly(lines, parseCoord).Ok? ==>
        r.Ok? && fresh(r.value) && r.value.State() == Snapshot(ParsePly(lines, parseCoord).value.points, ParsePly(lines, parseCoord).value.colors, [])
    {
      var header := ReadHeader(lines);
      if header.Err? {
        return Err(header.error);
      }
      var start, vertexCount, hasColor := header.value.bodyStart, header.value.vertexCount, header.value.hasColor;
      var n := VertexTotal(vertexCount);
      assert ParsePly(lines, parseCoord) == BodyOf(lines, start, n, Reader(hasColor, parseCoord));
      var cloud := new PointCloud();
      var failure := cloud.ReadBody(lines, start, n, Reader(hasColor, parseCoord));
      if failure.Some? {
        return Err(failure.value);
      }
      return Ok(cloud);
    }

    /**
     * The body loop of `from_ply` on a new cloud: `for _ in 0..vertex_count`, reading line
     * `start + v` with `read` and pushing its point, and its color when it carries one. The
     * error is that of the first line that cannot be read. `from_ply` reads with
     * `Reader(has_color, parse)`, whose steps `ReadVertex` spells out.
     */
    method ReadBody(lines: seq<string>, start: nat, n: nat, read: LineReader)
      returns (failure: Option<PlyError>)
      requires State() == Snapshot([], [], [])
      modifies this
      ensures BodyOf(lines, start, n, read).Err? ==> failure == Some(BodyOf(lines, start, n, read).error)
      ensures BodyOf(lines, start, n, read).Ok? ==>
        failure.None? && points == BodyOf(lines, start, n, read).value.points
        && colors == BodyOf(lines, start, n, read).value.colors
      ensures normals == []
    {
      for v := 0 to n
        invariant normals == []
        invariant BodyOf(lines, start, v, read) == Ok(Body(points, colors))
      {
        var line := LineAt(lines, start + v);
        var vertex := read(line);
        assert vertex == read(BodyLine(lines, start, v));
        BodyStep(lines, start, v, read);
        if vertex.None? {
          BodyErrorPersists(lines, start, v + 1, n, read);
          return Some(MalformedVertex(v));
        }
        points := points + [vertex.value.0];
        colors := colors + vertex.value.1;
      }
      return None;
    }

    /**
     * One iteration of the body loop of `from_ply`: the line's fields, a point from the
     * first three, and a color from the next three when the header mentions color and the
     * line has six or more fields. `None` where `vals[i]` or `unwrap` would panic.
     */
    static method ReadVertex(line: string, hasColor: bool, parseCoord: string -> Option<real>) returns (r: Option<(Vec3, seq<Rgb>)>)
      ensures r == Reader(hasColor, parseCoord)(line)
    {
      var vals := Tokens(line);
      if |vals| < 3 {
        return None;
      }
      var x, y, z := parseCoord(vals[0]), parseCoord(vals[1]), parseCoord(vals[2]);
      if x.None? || y.None? || z.None? {
        return None;
      }
      var point := Vec3(x.value, y.value, z.value);
      if hasColor && |vals| >= 6 {
        var red, green, blue := ParseU8(vals[3]), ParseU8(vals[4]), ParseU8(vals[5]);
        if red.None? || green.None? || blue.None? {
          return None;
        }
        return Some((point, [Rgb(red.value, green.value, blue.value)]));
      }
      return Some((point, []));
    }

    /**
     * The header loop of `from_ply`: each line is checked for `element vertex`, then for
     * `red`, then for `end_header`, which ends the loop.
     */
    static method ReadHeader(lines: seq<string>) returns (r: Result<Header, PlyError>)
      ensures r == HeaderOf(lines)
    {
      ghost var ks := Classified(lines);
      var i: nat := 0;
      var vertexCount: int := 0;
      var hasColor := false;
      while true
        invariant i <= |lines|
        invariant HeaderOf(lines) == ScanHeaderFrom(ks, i, vertexCount, hasColor)
        decreases |lines| - i
      {
        if i == |lines| {
          return Err(MissingEndHeader);
        }
        var line := lines[i];
        assert ks[i] == Classify(line);
        if IsVertexElement(line) {
          var field := VertexCountField(line);
          if field.None? {
            return Err(BadVertexCount(i));
          }
          vertexCount := field.value;
        }
        if MentionsColor(line) {
          hasColor := true;
        }
        if IsEndHeader(line) {
          break;
        }
        i := i + 1;
      }
      return Ok(Header(vertexCount, hasColor, i + 1));
    }

    /**
     * `voxel_downsample` with `key` for the voxel of a point. `indices` is the source's
     * `indices`, the first index of each voxel in the map's iteration order; `panicked`
     * tells whether `self.colors[i]` went out of bounds.
     */
    method VoxelDownsample(key: Vec3 -> VoxelKey) returns (indices: seq<nat>, panicked: bool)
      modifies this
      ensures IsVoxelSelection(old(points), key, indices)
      ensures |points| == |KeySet(old(points), key)|
      ensures panicked == DownsamplePanics(old(colors), indices)
      ensures State() == Downsampled(old(State()), indices)
    {
      indices := VoxelIndices(points, key);
      points := Gather(points, indices);
      panicked := false;
      if colors != [] {
        var gathered: seq<Rgb> := [];
        for j := 0 to |indices|
          invariant |gathered| == j
          invariant forall m :: 0 <= m < j ==> indices[m] < |colors| && gathered[m] == colors[indices[m]]
        {
          if indices[j] >= |colors| {
            panicked := true;
            return;
          }
          gathered := gathered + [colors[indices[j]]];
        }
        assert gathered == Gather(colors, indices);
        colors := gathered;
      }
    }

    /** `remove_outliers(k, std_ratio)`, with `sqrt` for `f32::sqrt`. */
    method RemoveOutliers(k: nat, stdRatio: real, sqrt: real -> real)
      modifies this
      ensures State() == OutliersRemoved(old(State()), k, stdRatio, sqrt)
    {
      if |points| < k {
        return;
      }
      var mask := Mask(points, stdRatio, sqrt);
      points := Select(points, mask);
      if colors != [] {
        colors := Select(colors, mask);
      }
    }
  }
}

=== FILE: points.dfy ===
/** The element types of a point cloud: positions (`[f32; 3]`) and colors (`[u8; 3]`). */
module Points {

  /** A position; the model takes its coordinates as reals, not as 32-bit floats. */
  datatype Vec3 = Vec3(x: real, y: real, z: real) {
    /** Coordinate `axis` (0, 1 or 2), as `p[axis]` indexes the array. */
    function At(axis: nat): real
      requires axis < 3
    {
      if axis == 0 then x else if axis == 1 then y else z
    }
  }

  /** `[0.0; 3]`. */
  const Origin: Vec3 := Vec3(0.0, 0.0, 0.0)

  /** A value of Rust's `u8`. */
  type Byte = n: int | 0 <= n < 256

  /** A color as three `u8` channels. */
  datatype Rgb = Rgb(r: Byte, g: Byte, b: Byte)
}

=== FILE: text.dfy ===
/**
 * The string operations the PLY reader relies on, with Rust's standard-library meaning:
 * `char::is_whitespace`, `str::split_whitespace`, `str::trim`, `str::starts_with`,
 * `str::contains`, and `FromStr` for the integer types `i32` and `u8`.
 * Strings are sequences of characters; a line is given without its line terminator.
 */
module Text {
  import opened Outcomes

  /** Rust's `char::is_whitespace`: the Unicode White_Space characters. */
  predicate IsWhitespace(c: char) {
    var n := c as int;
    (9 <= n <= 13) || n == 32 || n == 0x85 || n == 0xA0 || n == 0x1680
    || (0x2000 <= n <= 0x200A) || n == 0x2028 || n == 0x2029 || n == 0x202F
    || n == 0x205F || n == 0x3000
  }

  /** A non-empty string without whitespace: what `split_whitespace` yields. */
  predicate IsWord(t: string) {
    t != [] && forall i :: 0 <= i < |t| ==> !IsWhitespace(t[i])
  }

  predicate AllWhitespace(s: string) {
    forall i :: 0 <= i < |s| ==> IsWhitespace(s[i])
  }

  /** The length of the longest prefix of `s` that holds no whitespace. */
  function RunLength(s: string): (n: nat)
    ensures n <= |s|
    ensures forall i :: 0 <= i < n ==> !IsWhitespace(s[i])
    ensures n < |s| ==> IsWhitespace(s[n])
  {
    if s == [] || IsWhitespace(s[0]) then 0 else 1 + RunLength(s[1..])
  }

  /** `str::split_whitespace`: the maximal whitespace-free runs of `s`, in order. */
  function Tokens(s: string): (ts: seq<string>)
    ensures forall j :: 0 <= j < |ts| ==> IsWord(ts[j])
    decreases |s|
  {
    if s == [] then []
    else if IsWhitespace(s[0]) then Tokens(s[1..])
    else
      var n := RunLength(s);
      [s[..n]] + Tokens(s[n..])
  }

  /** The words joined by single spaces: the layout of a line that a writer produces. */
  function JoinWords(ts: seq<string>): string {
    if ts == [] then ""
    else if |ts| == 1 then ts[0]
    else ts[0] + " " + JoinWords(ts[1..])
  }

  lemma {:induction false} RunLengthOfWord(t: string, u: string)
    requires IsWord(t)
    requires u == [] || IsWhitespace(u[0])
    ensures RunLength(t + u) == |t|
  {
    if |t| > 1 {
      assert (t + u)[1..] == t[1..] + u;
      RunLengthOfWord(t[1..], u);
    } else {
      assert (t + u)[1..] == u;
    }
  }

  /** Leading whitespace, of any kind and length, does not change the fields. */
  lemma {:induction false} TokensSkipLeadingSpace(a: string, s: string)
    requires AllWhitespace(a)
    ensures Tokens(a + s) == Tokens(s)
    decreases |a|
  {
    if a == [] {
      assert a + s == s;
    } else {
      assert (a + s)[0] == a[0] && IsWhitespace(a[0]);
      assert (a + s)[1..] == a[1..] + s;
      TokensSkipLeadingSpace(a[1..], s);
    }
  }

  /** Splitting a line of space-separated words gives back exactly those words. */
  lemma {:induction false} TokensOfJoin(ts: seq<string>)
    requires forall j :: 0 <= j < |ts| ==> IsWord(ts[j])
    ensures Tokens(JoinWords(ts)) == ts
  {
    if ts == [] {
    } else if |ts| == 1 {
      var t := ts[0];
      RunLengthOfWord(t, "");
      assert t + "" == t;
      assert t[|t|..] == [];
    } else {
      var t, rest := ts[0], JoinWords(ts[1..]);
      var s := t + " " + rest;
      assert s == t + (" " + rest);
      RunLengthOfWord(t, " " + rest);
      assert s[..|t|] == t;
      assert s[|t|..] == " " + rest;
      TokensSkipLeadingSpace(" ", rest);
      TokensOfJoin(ts[1..]);
      assert [ts[0]] + ts[1..] == ts;
    }
  }

  /** `str::trim_start`. */
  function TrimStart(s: string): string {
    if s != [] && IsWhitespace(s[0]) then TrimStart(s[1..]) else s
  }

  /** `str::trim_end`. */
  function TrimEnd(s: string): string {
    if s != [] && IsWhitespace(s[|s| - 1]) then TrimEnd(s[..|s| - 1]) else s
  }

  /** `str::trim`: `s` without leading and trailing whitespace. */
  function Trim(s: string): string {
    TrimEnd(TrimStart(s))
  }

  lemma {:induction false} TrimStartPadded(a: string, w: string)
    requires AllWhitespace(a)
    requires w == [] || !IsWhitespace(w[0])
    ensures TrimStart(a + w) == w
  {
    if a != [] {
      assert (a + w)[1..] == a[1..] + w;
      TrimStartPadded(a[1..], w);
    }
  }

  lemma {:induction false} TrimEndPadded(w: string, b: string)
    requires AllWhitespace(b)
    requires w == [] || !IsWhitespace(w[|w| - 1])
    ensures TrimEnd(w + b) == w
  {
    if b != [] {
      var s := w + b;
      assert s[..|s| - 1] == w + b[..|b| - 1];
      TrimEndPadded(w, b[..|b| - 1]);
    } else {
      assert w + b == w;
    }
  }

  /** A word surrounded by whitespace trims to that word. */
  lemma TrimPadded(a: string, w: string, b: string)
    requires AllWhitespace(a) && AllWhitespace(b) && IsWord(w)
    ensures Trim(a + w + b) == w
  {
    assert a + w + b == a + (w + b);
    TrimStartPadded(a, w + b);
    TrimEndPadded(w, b);
  }

  /** `t` is `s[i..j]`, and `s` is `t` padded with whitespace on both sides. */
  predicate IsTrimmedFrom(s: string, t: string, i: nat, j: nat) {
    i <= j <= |s| && t == s[i..j] && AllWhitespace(s[..i]) && AllWhitespace(s[j..])
    && (i < j ==> !IsWhitespace(s[i]) && !IsWhitespace(s[j - 1]))
  }

  lemma {:induction false} TrimStartIsSuffix(s: string) returns (i: nat)
    ensures i <= |s| && TrimStart(s) == s[i..] && AllWhitespace(s[..i])
    ensures i < |s| ==> !IsWhitespace(s[i])
  {
    if s != [] && IsWhitespace(s[0]) {
      var k := TrimStartIsSuffix(s[1..]);
      i := k + 1;
      assert s[1..][k..] == s[i..];
      assert s[..i] == [s[0]] + s[1..][..k];
    } else {
      i := 0;
      assert s[0..] == s;
    }
  }

  lemma {:induction false} TrimEndIsPrefix(s: string) returns (j: nat)
    ensures j <= |s| && TrimEnd(s) == s[..j] && AllWhitespace(s[j..])
    ensures 0 < j ==> !IsWhitespace(s[j - 1])
  {
    if s != [] && IsWhitespace(s[|s| - 1]) {
      var s' := s[..|s| - 1];
      j := TrimEndIsPrefix(s');
      assert s'[..j] == s[..j];
      assert s[j..] == s'[j..] + [s[|s| - 1]];
    } else {
      j := |s|;
      assert s[..|s|] == s;
    }
  }

  /**
   * Conversely, `Trim(s)` is an infix of `s` whose surroundings are whitespace and
   * whose first and last characters are not.
   */
  lemma TrimIsInfix(s: string) returns (i: nat, j: nat)
    ensures IsTrimmedFrom(s, Trim(s), i, j)
  {
    i := TrimStartIsSuffix(s);
    var t := s[i..];
    var k := TrimEndIsPrefix(t);
    j := i + k;
    assert t[..k] == s[i..j];
    assert t[k..] == s[j..];
  }

  /** `str::starts_with`. */
  predicate StartsWith(s: string, p: string) {
    |p| <= |s| && s[..|p|] == p
  }

  /** `str::contains`: `p` occurs somewhere in `s`. */
  predicate Contains(s: string, p: string) {
    exists i :: 0 <= i <= |s| && StartsWith(s[i..], p)
  }

  predicate IsDigit(c: char) {
    '0' <= c <= '9'
  }

  predicate AllDigits(s: string) {
    forall i :: 0 <= i < |s| ==> IsDigit(s[i])
  }

  /** The value of a string of decimal digits, most significant first. */
  function DigitsValue(ds: string): nat
    requires AllDigits(ds)
  {
    if ds == [] then 0
    else DigitsValue(ds[..|ds| - 1]) * 10 + (ds[|ds| - 1] as int - '0' as int)
  }

  /**
   * Rust's `FromStr` for an integer type whose range is `lo..=hi`: an optional `+`
   * (or, for a signed type, `-`) followed by at least one ASCII digit; the value must
   * fit the type. Anything else is an error (`None`).
   */
  function ParseInteger(s: string, signed: bool, lo: int, hi: int): (r: Option<int>)
    ensures r.Some? ==> lo <= r.value <= hi
    ensures r.Some? ==> s != [] && (s[0] == '-' ==> signed && r.value <= 0)
  {
    if s == [] then None
    else if (s[0] == '+' || s[0] == '-') && |s| == 1 then None
    else
      var negative := s[0] == '-' && signed;
      var ds := if s[0] == '+' || negative then s[1..] else s;
      if !AllDigits(ds) then None
      else
        var n: int := DigitsValue(ds);
        var v := if negative then -n else n;
        if lo <= v <= hi then Some(v) else None
  }

  const I32Min: int := -0x8000_0000
  const I32Max: int := 0x7FFF_FFFF

  /** `str::parse::<i32>`. */
  function ParseI32(s: string): Option<int> {
    ParseInteger(s, true, I32Min, I32Max)
  }

  /** `str::parse::<u8>`. */
  function ParseU8(s: string): Option<int> {
    ParseInteger(s, false, 0, 255)
  }

  /** Decimal digits of `n`, without leading zeros. */
  function ShowNat(n: nat): (s: string)
    ensures s != [] && AllDigits(s)
  {
    var d := ['0' + (n % 10) as char];
    if n < 10 then d else ShowNat(n / 10) + d
  }

  /** Decimal text of `n`, with a leading `-` when it is negative. */
  function ShowInt(n: int): string {
    if n < 0 then "-" + ShowNat(-n) else ShowNat(n)
  }

  lemma {:induction false} DigitsOfShowNat(n: nat)
    ensures DigitsValue(ShowNat(n)) == n
  {
    var s := ShowNat(n);
    if n >= 10 {
      DigitsOfShowNat(n / 10);
      assert s[..|s| - 1] == ShowNat(n / 10);
    }
  }

  /** Parsing the decimal text of an `i32` gives the number back. */
  lemma ParseI32OfShow(n: int)
    requires I32Min <= n <= I32Max
    ensures ParseI32(ShowInt(n)) == Some(n)
  {
    var m := if n < 0 then -n else n;
    DigitsOfShowNat(m);
    var s := ShowInt(n);
    if n < 0 {
      assert s[1..] == ShowNat(m);
    }
  }

  /** Parsing the decimal text of a `u8` gives the number back. */
  lemma ParseU8OfShow(n: nat)
    requires n <= 255
    ensures ParseU8(ShowNat(n)) == Some(n)
  {
    DigitsOfShowNat(n);
  }
}

=== FILE: voxels.dfy ===
/**
 * The selection step of `PointCloud::voxel_downsample`: every point gets a voxel key, a
 * hash map keeps the first index seen for each key (`entry(key).or_insert`), and the
 * kept indices are then read back out of the map in its (unspecified) iteration order.
 *
 * The key function stands for `(p[axis] / voxel_size).floor() as i32` on each axis; the
 * model takes it as a parameter instead of computing it in 32-bit floating point.
 */
module Voxels {
  import opened Points
  import opened Indexing

  /** `(i32, i32, i32)`: the voxel a point falls in. */
  datatype VoxelKey = VoxelKey(x: int, y: int, z: int)

  /** `i` is the lowest index whose point has the voxel key of `points[i]`. */
  predicate IsFirstOfKey(points: seq<Vec3>, key: Vec3 -> VoxelKey, i: int) {
    0 <= i < |points| && forall j :: 0 <= j < i ==> key(points[j]) != key(points[i])
  }

  /** The distinct voxel keys among the points. */
  function KeySet(points: seq<Vec3>, key: Vec3 -> VoxelKey): set<VoxelKey> {
    set i | 0 <= i < |points| :: key(points[i])
  }

  /** `indices` lists each first-of-its-key index exactly once, in some order. */
  predicate IsVoxelSelection(points: seq<Vec3>, key: Vec3 -> VoxelKey, indices: seq<nat>) {
    (forall j :: 0 <= j < |indices| ==> IsFirstOfKey(points, key, indices[j]))
    && (forall i :: 0 <= i < |points| && IsFirstOfKey(points, key, i) ==> i in indices)
    && (forall a, b :: 0 <= a < b < |indices| ==> indices[a] != indices[b])
  }

  /** What the map holds for key `k`: the first index with that key, and its point. */
  predicate IsFirstEntry(points: seq<Vec3>, key: Vec3 -> VoxelKey, k: VoxelKey, entry: (nat, Vec3)) {
    IsFirstOfKey(points, key, entry.0) && key(points[entry.0]) == k && entry.1 == points[entry.0]
  }

  /**
   * The first loop of `voxel_downsample`: `voxels.entry(key).or_insert((i, *p))` for every
   * point in order, so each key keeps the entry of the first point that has it.
   */
  method FirstPerVoxel(points: seq<Vec3>, key: Vec3 -> VoxelKey) returns (voxels: map<VoxelKey, (nat, Vec3)>)
    ensures voxels.Keys == KeySet(points, key)
    ensures forall k :: k in voxels ==> IsFirstEntry(points, key, k, voxels[k])
  {
    voxels := map[];
    for i := 0 to |points|
      invariant forall k :: k in voxels <==> exists j :: 0 <= j < i && key(points[j]) == k
      invariant forall k :: k in voxels ==> voxels[k].0 < i && IsFirstEntry(points, key, k, voxels[k])
    {
      var k := key(points[i]);
      if k !in voxels {
        voxels := voxels[k := (i, points[i])];
      }
    }
  }

  /**
   * The indices `voxel_downsample` keeps: `voxels.values().map(|(i, _)| *i)`. The map's
   * iteration order is unspecified; the choice in the loop stands for it.
   */
  method VoxelIndices(points: seq<Vec3>, key: Vec3 -> VoxelKey) returns (indices: seq<nat>)
    ensures IsVoxelSelection(points, key, indices)
    ensures |indices| == |KeySet(points, key)|
  {
    var voxels := FirstPerVoxel(points, key);
    var remaining := voxels.Keys;
    indices := [];
    ghost var keys: seq<VoxelKey> := [];
    while remaining != {}
      invariant remaining <= voxels.Keys
      invariant |indices| + |remaining| == |voxels.Keys|
      invariant |keys| == |indices|
      invariant forall j :: 0 <= j < |indices| ==>
        keys[j] in voxels && keys[j] !in remaining && voxels[keys[j]].0 == indices[j]
      invariant forall k :: k in voxels && k !in remaining ==> voxels[k].0 in indices
      invariant forall a, b :: 0 <= a < b < |indices| ==> indices[a] != indices[b]
      decreases |remaining|
    {
      var k :| k in remaining;
      var i := voxels[k].0;
      forall j | 0 <= j < |indices| ensures indices[j] != i {
        assert key(points[indices[j]]) == keys[j];
      }
      indices := indices + [i];
      keys := keys + [k];
      remaining := remaining - {k};
    }
    forall i | 0 <= i < |points| && IsFirstOfKey(points, key, i)
      ensures i in indices
    {
      var k := key(points[i]);
      assert k in KeySet(points, key);
      assert voxels[k].0 == i;
    }
  }

  /** The lowest index whose point shares the voxel of `points[i]`. */
  lemma {:induction false} FirstOfKeyExists(points: seq<Vec3>, key: Vec3 -> VoxelKey, i: nat) returns (f: nat)
    requires i < |points|
    ensures f <= i && IsFirstOfKey(points, key, f) && key(points[f]) == key(points[i])
    decreases i
  {
    if IsFirstOfKey(points, key, i) {
      f := i;
    } else {
      var j :| 0 <= j < i && key(points[j]) == key(points[i]);
      f := FirstOfKeyExists(points, key, j);
    }
  }

  /**
   * What any selection keeps: points of the input, the lowest-index one of each voxel,
   * every voxel of the input represented, and no voxel twice.
   */
  lemma SelectionKeepsOnePerVoxel(points: seq<Vec3>, key: Vec3 -> VoxelKey, indices: seq<nat>)
    requires IsVoxelSelection(points, key, indices)
    ensures var out := Gather(points, indices);
      (forall j :: 0 <= j < |out| ==>
         (out[j] == points[indices[j]] && forall i :: 0 <= i < indices[j] ==> key(points[i]) != key(out[j])))
      && (forall a, b :: 0 <= a < b < |out| ==> key(out[a]) != key(out[b]))
      && KeySet(out, key) == KeySet(points, key)
  {
    var out := Gather(points, indices);
    forall j | 0 <= j < |out|
      ensures out[j] == points[indices[j]] && forall i :: 0 <= i < indices[j] ==> key(points[i]) != key(out[j])
    {
      assert IsFirstOfKey(points, key, indices[j]);
    }
    forall k | k in KeySet(points, key) ensures k in KeySet(out, key) {
      var i :| 0 <= i < |points| && key(points[i]) == k;
      var f := FirstOfKeyExists(points, key, i);
      assert f in indices;
      var j :| 0 <= j < |indices| && indices[j] == f;
      assert out[j] == points[f];
      assert key(out[j]) == k;
    }
    forall k | k in KeySet(out, key) ensures k in KeySet(points, key) {
      var j :| 0 <= j < |out| && key(out[j]) == k;
      assert key(points[indices[j]]) == k;
    }
    forall a, b | 0 <= a < b < |out|
      ensures key(out[a]) != key(out[b])
    {
      var ia, ib := indices[a], indices[b];
      assert out[a] == points[ia] && out[b] == points[ib];
      assert IsFirstOfKey(points, key, ia) && IsFirstOfKey(points, key, ib);
      if ia < ib {
        assert key(points[ia]) != key(points[ib]);
      } else {
        assert key(points[ib]) != key(points[ia]);
      }
    }
  }

  /** A selection keeps exactly as many points as there are distinct voxel keys. */
  lemma SelectionSize(points: seq<Vec3>, key: Vec3 -> VoxelKey, indices: seq<nat>)
    requires IsVoxelSelection(points, key, indices)
    ensures |indices| == |KeySet(points, key)|
  {
    SelectionKeepsOnePerVoxel(points, key, indices);
    var out := Gather(points, indices);
    var ks := seq(|out|, j requires 0 <= j < |out| => key(out[j]));
    DistinctCard(ks);
    assert (set x | x in ks) == KeySet(out, key) by {
      forall x | x in ks ensures x in KeySet(out, key) {
        var j :| 0 <= j < |ks| && ks[j] == x;
      }
      forall x | x in KeySet(out, key) ensures x in ks {
        var j :| 0 <= j < |out| && key(out[j]) == x;
        assert ks[j] == x;
      }
    }
  }

  /** There are never more voxels than points. */
  lemma {:induction false} KeySetBound(points: seq<Vec3>, key: Vec3 -> VoxelKey)
    ensures |KeySet(points, key)| <= |points|
  {
    if points != [] {
      var n := |points| - 1;
      var front := points[..n];
      KeySetBound(front, key);
      assert KeySet(points, key) == KeySet(front, key) + {key(points[n])} by {
        forall k | k in KeySet(points, key) ensures k in KeySet(front, key) + {key(points[n])} {
          var i :| 0 <= i < |points| && key(points[i]) == k;
          if i < n { assert key(front[i]) == k; }
        }
        forall k | k in KeySet(front, key) ensures k in KeySet(points, key) {
          var i :| 0 <= i < |front| && key(front[i]) == k;
          assert key(points[i]) == k;
        }
      }
    }
  }

  /**
   * The iteration order of the map is the only freedom: any two selections keep the same
   * indices, and the points they keep are the same up to order.
   */
  lemma SelectionsAgreeUpToOrder(points: seq<Vec3>, key: Vec3 -> VoxelKey, is1: seq<nat>, is2: seq<nat>)
    requires IsVoxelSelection(points, key, is1) && IsVoxelSelection(points, key, is2)
    ensures multiset(is1) == multiset(is2)
    ensures multiset(Gather(points, is1)) == multiset(Gather(points, is2))
  {
    DistinctOccursOnce(is1);
    DistinctOccursOnce(is2);
    forall x ensures multiset(is1)[x] == multiset(is2)[x] {
      assert x in is1 <==> IsFirstOfKey(points, key, x);
      assert x in is2 <==> IsFirstOfKey(points, key, x);
    }
    GatherPermutes(points, is1, is2);
  }
}
